=== FILE: README.md ===
# Cloudinary adapter for Flysystem, modelled in Dafny

This project models the translation layer of `vasilvestre/flysystem-cloudinary-adapter`.
The layer maps Flysystem paths and operations onto Cloudinary, a flat asset store
indexed by public id and queried through a search service. It has three parts:

- `PathConverter::convertPathToPublicId` (module `PathConverter`). It looks up the MIME
  type of the path's extension, and PHP's loose `switch` decides whether the extension
  is dropped. The PHP string built-ins it needs (`pathinfo`, `basename`, `dirname`,
  `str_starts_with`, truthiness, `empty()`) are in `PhpStrings`.
- The decision logic of `CloudinaryAdapter` (modules `Escaper`, `RemoteStore`,
  `Adapter`, `Listing`):
  - the `sanitizePath` escaper and its inverse;
  - key construction from the `uri_prefix`;
  - every Flysystem operation except the byte reads against an abstract store, with the exceptions each
    one throws;
  - the cursor-draining pagination of `doListContents` and the record mapping of
    `normalizeMetadata`.
- `DataUri` (modules `DataUri`, `Base64`). It builds `data:<mime>;base64,<payload>` in
  the base64 form of section 3 of RFC 2397, with the payload encoded as in section 4 of
  RFC 4648. A strict decoder is proved to be its inverse in both directions.

How the model represents the remote side:

- **The store.** A map from public id to asset (resource type, size, creation time,
  version, URL), plus a list of folder paths.
- **Calls.** Every remote request is a `Call` value carrying the options the adapter
  passes. Each operation returns its result, the store after it and the calls it made,
  in order.
- **Failures.** A `Faults` map names the requests of one operation that throw, by their
  position in that operation (0 for the first request), and what they throw. A request
  an operation repeats can therefore fail the second time only. An example is the search
  that `move`'s clean-up `delete` makes again. Every `ApiError` path of the adapter can
  be reached this way.
- **Host functions.** Three host-library functions are parameters: the
  extension-to-MIME table, `finfo` content sniffing and `strtotime`.
- **Exact search (an assumption).** The service is assumed to read the literal of a
  `public_id:<escaped id>` search with `Escaper.Unsanitize`, the escaper's own inverse,
  and to match ids exactly. Under that assumption `Adapter.Lookup` proves that the search
  finds exactly the asset stored under the id. The exactness comes from the assumed
  reader, not from the escaper alone. The escaper does not escape a backslash, so a
  reader that dropped every backslash would confuse `a\b` with `ab`.
- **Upload.** What an upload stores is decided remotely, so it is a parameter of
  `Adapter.Write`.
- **Listing pages.** The search answers seen by listing are a finite list of pages
  whose last page has no cursor.

## Model

| member | source | states |
|---|---|---|
| PathConverter.ConvertPathToPublicId | src/PathConverter.php:9-21 | The result is never longer than the path. It is either the path itself or a prefix of the path's last component. |
| PathConverter.SwitchDecision | src/PathConverter.php:13-16 | The loose `switch` takes the strip branch exactly when the looked-up MIME type is `null`, "" or "0", or starts with video, image or audio. |
| PathConverter.ConvertDecision | src/PathConverter.php:11-20 | Both branches: in the strip case the result is `PATHINFO_FILENAME` of the path; otherwise it is the path unchanged. |
| PathConverter.MediaLosesExtension | src/PathConverter.php:14-17 | For a media MIME type, the result plus "." plus the extension gives back the basename. |
| PathConverter.UnknownExtensionIsStripped | src/PathConverter.php:11-17 | An extension the table does not know (`null == false`) also takes the strip branch. It is not passed through. |
| PathConverter.OtherTypeKeepsPath | src/PathConverter.php:18-19 | A known non-media MIME type leaves the path as it is. |
| PathConverter.StripDropsDirectory | src/PathConverter.php:17 | The strip branch turns `dir/name.ext` into `name`, dropping the directory. |
| PathConverter.OnlyLastExtensionStripped | src/PathConverter.php:17 | Only the last extension is removed, even when the stem has dots. |
| PathConverter.NonMediaKeepsDirectory | src/PathConverter.php:18-19 | A non-media `dir/name.ext` comes back whole, directory included. |
| PathConverter.SampleFooJpg | tests/PathConverterTest.php:24 | `foo.jpg` becomes `foo` under a table mapping jpg to image/jpeg. |
| PathConverter.SampleDoubleJpg | tests/PathConverterTest.php:25 | `test.jpg.jpg` becomes `test.jpg`. |
| PathConverter.SampleBarAvif | tests/PathConverterTest.php:26 | `bar.avif` becomes `bar`. |
| PathConverter.SampleFoobarTxt | tests/PathConverterTest.php:27 | `foobar.txt` is kept. |
| PathConverter.SampleTextInDirectory | tests/PathConverterTest.php:28-30 | `test/foobar.txt`, `test/foo_bar.txt` and `test/foo bar.txt` are kept. |
| PhpStrings.FilenameAndExtension | src/PathConverter.php:11-17 | `PATHINFO_FILENAME`, a dot and `PATHINFO_EXTENSION` reassemble the basename, and the extension holds no dot. Without a dot the filename is the whole basename and the extension is "". |
| PhpStrings.DirnameOfChild | src/CloudinaryAdapter.php:207 | `dirname` of `dir/name` is `dir`. |
| Escaper.Sanitize | src/CloudinaryAdapter.php:53-56 | Every regex match gains exactly one backslash: the output is as long as the input plus the number of matches. |
| Escaper.NoMatchUnchanged | src/CloudinaryAdapter.php:55 | A string with no special character and no "\|=" is its own escape. |
| Escaper.UnsanitizeSanitize | src/CloudinaryAdapter.php:53-56 | Deleting the inserted backslashes recovers the input, for every input. |
| Escaper.SanitizeInjective | src/CloudinaryAdapter.php:55 | Two different paths never escape to the same query literal. |
| Escaper.PipeAndEqualsOnlyAsPair | src/CloudinaryAdapter.php:55 | A lone `\|` or `=` is not escaped; the pair "\|=" and whitespace are. |
| Escaper.BackslashNotEscaped | src/CloudinaryAdapter.php:55 | For the example path `a\b`: the backslash is not escaped, and the assumed reader takes it literally. |
| Escaper.BackslashSplits | src/CloudinaryAdapter.php:55 | For every path, a backslash is kept as it is and no match spans it: the parts on either side are escaped separately. |
| Base64.Encode | src/DataUri.php:35 | `base64_encode` gives 4 characters per started group of 3 bytes. |
| Base64.EncodeShape | src/DataUri.php:35 | '=' appears exactly in the last (3 - n mod 3) mod 3 positions; every other character is from the standard alphabet. |
| Base64.DecodeEncode | src/DataUri.php:35 | Decoding the encoding gives back the bytes, including binary and empty input. |
| Base64.EncodeDecode | src/DataUri.php:35 | Every string the strict decoder accepts is the encoding of what it decodes to. |
| DataUri.ToString | src/DataUri.php:30-37 | The URI starts with `data:`, ends with the base64 encoding of the content, and has the length of scheme, MIME type, `;base64,` and payload together. |
| DataUri.NoCommaInPayload | src/DataUri.php:35 | The payload holds no comma, so the separator is the URI's last comma. |
| DataUri.ParseAssemble | src/DataUri.php:32-36 | Reading an assembled data URI gives back its MIME type and content, for any MIME type. |
| DataUri.AssembleParse | src/DataUri.php:32-36 | Everything the reader accepts is the assembly of what it reads. |
| DataUri.ToStringRoundTrip | src/DataUri.php:16-37 | The payload of `__toString` decodes to exactly the constructor's content. |
| DataUri.EmptyContent | src/DataUri.php:32-36 | Empty content gives `data:<mime>;base64,` with an empty payload. |
| DataUri.ToStringDeterminesContent | src/DataUri.php:16-37 | Two data URIs print the same exactly when their contents are equal. |
| RemoteStore.ExactQuery | src/CloudinaryAdapter.php:100 | Every exact lookup's expression starts with `public_id:`. |
| RemoteStore.Store | src/CloudinaryAdapter.php:60-68 | An overwriting upload puts the stored asset under its id and changes no other id and no folder. |
| RemoteStore.RunAll | src/CloudinaryAdapter.php:113-123 | The calls issued are a prefix of the planned ones. All are issued exactly when no position throws. Otherwise the last issued call is the first whose position throws, and its error is reported. |
| RemoteStore.RunAllWithoutFaults | src/CloudinaryAdapter.php:117-120 | Without failures every call is issued, and the store is each call's effect applied in order. |
| Adapter.Lookup | src/CloudinaryAdapter.php:100 | The escaped `public_id:` search finds the asset stored under the id and nothing else. |
| Adapter.CatchNotFound | src/CloudinaryAdapter.php:138-140 | Only a `NotFound` is converted, into the wrapper's failure with the same message. Everything else passes through. |
| Adapter.UploadCall | src/CloudinaryAdapter.php:60-68 | The upload goes to the prefix plus the converted path, with overwrite true, type "auto" and the caller's `async`. Its payload reads back as the sniffed type and the exact content. |
| Adapter.Write | src/CloudinaryAdapter.php:58-72 | One upload. It succeeds iff that call does not throw, and then the store holds the stored asset under the converted id. An `ApiError` becomes `UnableToWriteFile` with its message and changes nothing. |
| Adapter.WriteStream | src/CloudinaryAdapter.php:77-95 | A resource that is not a stream gives `LogicException` with no request. A stream's content is written exactly as `write` writes it. |
| Adapter.WriteThenExists | src/CloudinaryAdapter.php:160-168 | A path the converter keeps is found by `fileExists` once written. |
| Adapter.WrittenMediaMissedByPath | src/CloudinaryAdapter.php:61 | A written media file is not found by `fileExists` under the path it was written to, because it is stored without its extension. |
| Adapter.Delete | src/CloudinaryAdapter.php:97-109 | The first request is the exact search for the prefixed path. On success exactly that id is removed and nothing else; on failure the store is unchanged. |
| Adapter.DeleteOutcomes | src/CloudinaryAdapter.php:99-108 | A missing file is a no-op with only the search. A failing search escapes. A found file is deleted under its own resource type, and a failing delete is `UnableToDeleteFile` with its message. |
| Adapter.DirectoryTarget | src/CloudinaryAdapter.php:114-116 | The target always starts with the prefix. A path that already does is kept. |
| Adapter.DirectoryTargetIdempotent | src/CloudinaryAdapter.php:114-116 | Applying the guard twice is applying it once. |
| Adapter.DeleteDirectory | src/CloudinaryAdapter.php:111-124 | The requests are a prefix of raw, image and video bulk deletes followed by the folder delete. Success means all four ran without error. The first error stops the rest and becomes `UnableToDeleteDirectory` with its message. |
| Adapter.BulkDeletesClearPrefix | src/CloudinaryAdapter.php:117-119 | The three bulk deletes remove every asset whose id starts with the target, of any type, and keep all others unchanged. |
| Adapter.DeleteDirectoryClears | src/CloudinaryAdapter.php:113-120 | After success no asset id starts with the target and no folder is in its tree. Everything else is kept. |
| Adapter.MoveSteps | src/CloudinaryAdapter.php:128-137 | `move` first searches the prefixed source. A missing source throws `NotFound` and leaves the store unchanged. |
| Adapter.MoveAsWritten | src/CloudinaryAdapter.php:126-141 | `move` as written, with `delete` given the already-prefixed source. No `NotFound` escapes it. |
| Adapter.Move | src/CloudinaryAdapter.php:126-141 | `move` with `delete` given the source. No `NotFound` escapes it. |
| Adapter.MoveMissingSource | src/CloudinaryAdapter.php:131-134 | A missing source gives `UnableToMoveFile` after only the search, with no rename. Both versions agree here. |
| Adapter.MoveRenames | src/CloudinaryAdapter.php:135-136 | In `move` as written and in the corrected move, a found source is renamed to the prefixed destination under its own resource type, with overwrite "true". |
| Adapter.MoveLetsOtherErrorsEscape | src/CloudinaryAdapter.php:136-139 | In `move` as written and in the corrected move, a rename `NotFound` becomes `UnableToMoveFile`; any other rename error escapes unchanged. |
| Adapter.MoveMovesExactly | src/CloudinaryAdapter.php:129-137 | The corrected move: moving between two different paths empties the source id and puts its asset under the destination id. Every other asset and folder is kept. |
| Adapter.MoveOntoItselfDeletes | src/CloudinaryAdapter.php:136-137 | The corrected move deletes a file moved onto itself, and so does the program with no prefix (`Adapter.MoveAgreesWithoutPrefix`). This assumes a rename onto itself changes nothing. |
| Adapter.MoveAsWrittenOntoItselfKeeps | src/CloudinaryAdapter.php:137 | As written with prefix "t/", moving "a" onto itself keeps "t/a", because the clean-up looks for "t/t/a". |
| Adapter.MoveCleanupSearchFails | src/CloudinaryAdapter.php:131-139 | The clean-up `delete` makes a second search as request 2. As written it searches the source id with the prefix added again; the corrected move searches the source id itself. In both, if that search throws, the rename has already moved the asset, a `NotFound` becomes `UnableToMoveFile`, and any other error escapes. |
| Adapter.MoveAgreesWithoutPrefix | src/CloudinaryAdapter.php:129-137 | Without a prefix, the as-written and corrected `move` coincide. |
| Adapter.MoveAsWrittenDeletesUnrelatedAsset | src/CloudinaryAdapter.php:137 | With prefix "t/", moving "a" to "b" as written succeeds and leaves only "t/b": the unrelated "t/t/a" is deleted. The corrected move leaves "t/b" and "t/t/a". |
| Adapter.MoveAsWrittenLosesFile | src/CloudinaryAdapter.php:137 | With prefix "t/", moving "x" to "t/x" as written deletes the file it has just moved, and the store ends up empty. The corrected move keeps it under "t/t/x". |
| Adapter.Copy | src/CloudinaryAdapter.php:143-146 | `copy` always throws `UnableToCopyFile` naming source and destination. |
| Adapter.SetVisibility | src/CloudinaryAdapter.php:148-153 | It throws iff the policy is "throw", and otherwise does nothing. |
| Adapter.Visibility | src/CloudinaryAdapter.php:155-158 | It always throws `UnableToRetrieveMetadata` for the path and the visibility attribute. |
| Adapter.MimeType | src/CloudinaryAdapter.php:170-173 | It always throws `UnableToRetrieveMetadata` for the path and the MIME type attribute. |
| Adapter.FileExists | src/CloudinaryAdapter.php:160-168 | The result is true iff the prefixed path is a stored id. Any search error becomes `UnableToCheckFileExistence` with its message. |
| Adapter.MetadataOf | src/CloudinaryAdapter.php:278-283 | The path is the public id and the size is `bytes` (false when absent). The timestamp is `strtotime` of the creation time, and false when there is none; the version is the stored one, or 1 when absent. |
| Adapter.GetMetadata | src/CloudinaryAdapter.php:262-285 | It succeeds iff the search does not throw and the prefixed path is stored. It then returns that asset's attributes: prefixed path, size, visibility "true", the parsed creation time or 0, MIME type "file" and the extra metadata. A miss throws `NotFound`, and a search error escapes. |
| Adapter.LastModified | src/CloudinaryAdapter.php:175-182 | It makes the same requests as `getMetadata` and succeeds exactly when `getMetadata` does. The time it then reports is the parsed creation time, or 0 when there is none or it cannot be parsed. |
| Adapter.FileSize | src/CloudinaryAdapter.php:184-191 | It makes the same requests as `getMetadata` and succeeds exactly when `getMetadata` does. The size it then reports is the stored `bytes`. |
| Adapter.MetadataErrors | src/CloudinaryAdapter.php:175-191 | For both `lastModified` and `fileSize`, a missing file and a `NotFound` from the search become `UnableToRetrieveMetadata` with its message; other search errors escape. |
| Adapter.Url | src/CloudinaryAdapter.php:315-324 | The result is the stored URL iff the prefixed path is stored. A miss is `UnableToReadFile`, and an error from the search escapes as it is. |
| Adapter.CreateDirectory | src/CloudinaryAdapter.php:193-201 | One folder request for the prefixed path. On success the folders are the old ones plus that path; an error becomes `UnableToCreateDirectory` with its message. |
| Adapter.CreateDirectoryIdempotent | src/CloudinaryAdapter.php:197 | Creating a directory twice leaves the store as creating it once. |
| Adapter.ExistenceQuery | src/CloudinaryAdapter.php:206-210 | It consults the root folders iff the prefixed path has no slash, and otherwise the subfolders of its `dirname`. |
| Adapter.DirectoryExists | src/CloudinaryAdapter.php:203-216 | One listing request. Errors escape, and a true answer means the prefixed path is a folder. |
| Adapter.DirectoryExistsExact | src/CloudinaryAdapter.php:205-215 | For a well-formed prefixed path, the answer is exactly whether it is a folder. |
| Listing.Normalize | src/CloudinaryAdapter.php:304-313 | A non-array gives false. A resource gives a "file" record with the same metadata `getMetadata` reports. |
| Listing.NormalizeRecord | src/CloudinaryAdapter.php:306-312 | The record has type "file" and path = public id. The size is false exactly when `bytes` is absent. The timestamp is `strtotime` of the creation time, or false without one. The version defaults to 1. |
| Listing.NormalizeAgreesWithGetMetadata | src/CloudinaryAdapter.php:304-313 | A listed file's record carries exactly the extra metadata `getMetadata` returns for it. |
| Listing.NormalizeAll | src/CloudinaryAdapter.php:246-248 | One record per resource, in order. |
| Listing.ListExpression | src/CloudinaryAdapter.php:234-240 | There is no expression iff `empty()` holds for the directory. Otherwise the expression is `folder:<dir>` followed by `/*` when deep and by nothing when shallow. |
| Listing.ZeroDirectoryListsEverything | src/CloudinaryAdapter.php:234 | The directory "0" is searched without an expression, like "". |
| Listing.StopPage | src/CloudinaryAdapter.php:249-255 | The loop stops at the first page without a cursor; every earlier page has one. |
| Listing.Drain | src/CloudinaryAdapter.php:231-256 | The loop makes at least one request and never more than the pages left. Its first request is for the current page. |
| Listing.DrainRequests | src/CloudinaryAdapter.php:241-252 | Request k asks for 500 results with the listing's expression and page k-1's cursor. |
| Listing.DrainStopsAtFault | src/CloudinaryAdapter.php:244 | Every request before the last succeeded. |
| Listing.DrainFiles | src/CloudinaryAdapter.php:246-255 | A successful loop read every page up to the first without a cursor. It returns their records in page order. |
| Listing.DrainError | src/CloudinaryAdapter.php:244 | A failing loop failed at its last request, with that request's error. |
| Listing.DoListContents | src/CloudinaryAdapter.php:231-256 | Every request is a search with the directory's expression and page size 500. |
| Listing.DoListContentsDrains | src/CloudinaryAdapter.php:233-255 | Without failures: one request per page up to the first page without a cursor. The first request has no cursor and each later one has the previous page's. The result is all their records in page order. |
| Listing.DoListContentsStopsAtFault | src/CloudinaryAdapter.php:244 | The first failing request ends the loop and its error escapes; without one, the result is all records in page order. |
| Listing.FilesFromLength | src/CloudinaryAdapter.php:246-248 | The number of records is the number of resources on the pages read. |
| Listing.ListContents | src/CloudinaryAdapter.php:218-229 | File entries come before any directory entry. A complete listing is the loop's records followed by the direct subfolders of the prefixed path. A failure after files were yielded is the subfolder request's. |

## Left out

- `read`, `readStream` and `content` open the asset URL with `fopen`; byte I/O is not modelled. The URL they use is modelled by `Adapter.Url`.
- The stream check and `stream_get_contents` in `writeStream` are reduced to an `Option`: `None` stands for a resource that is not a stream. A value that is not a resource at all makes `get_resource_type` throw a `TypeError`, which is not modelled.
- The extension-to-MIME table, `finfo` content sniffing and `strtotime` belong to other libraries. They are parameters (`PathConverter.MimeLookup`, `DataUri.Sniffer`, `Host.strtotime`).
- `DataUri::getFileInfo` reads the typed property `$finfo` before it is ever assigned, which PHP rejects at run time. The model sniffs with the given function instead, as the lazy initialisation evidently intends.
- The Cloudinary SDK is replaced by the abstract store, the `Call` records and the `Faults` map. Client construction and HTTP are left out.
- The SDK's search builder is one shared object, so an expression, page size or cursor set by one call can persist into the next. The model gives every request exactly the options the adapter sets for it.
- RemoteStore.SearchExact: the search service's matching is an assumption (an exact match on the unescaped id), not a model of Cloudinary's query language. Backslashes in paths are not escaped, and the assumed reader takes a backslash that is not followed by a special character literally.
- RemoteStore.Effect: one `DeleteAssetsByPrefix` per resource type is assumed to remove every matching asset, with no paging or limits. Deleting a folder is assumed to remove its whole subtree of folders. The post-states of `Adapter.BulkDeletesClearPrefix` and `Adapter.DeleteDirectoryClears` rest on these assumptions, not on the adapter's code.
- RemoteStore.Effect: a rename is assumed to move the asset when the resource type matches, overwriting the destination, and to change nothing otherwise. In particular a rename onto itself changes nothing, which is what `Adapter.MoveOntoItselfDeletes` rests on.
- RemoteStore.Store, RemoteStore.Effect: an upload or a rename is assumed never to create a folder, even when the public id contains slashes; the service may create the folder such an id names. `RemoteStore.Store` (its "no folder" clause) and the `folders` clause of `Adapter.MoveMovesExactly` rest on this assumption.
- Exceptions other than `ApiError` are not modelled: a request can only throw an `ApiError`. The `catch (ApiError ...)` blocks of `write`, `writeStream`, `delete`, `deleteDirectory` and `createDirectory` let any other exception through, and `fileExists`'s `catch (\Exception ...)` is the only one that would swallow it.
- RemoteStore.Effect: creating an existing folder is assumed to succeed and change nothing. The adapter does nothing to make `createDirectory` idempotent (it just calls `createFolder`), so `Adapter.CreateDirectoryIdempotent` rests on this assumption.
- RemoteStore.Effect: creating a folder does not create its parents. Listing a folder that does not exist is not an error unless the `Faults` map says so.
- The listing pages are an oracle independent of the asset map. Listing does not re-derive them from the store.
- Flysystem's `FileAttributes::fromArray` and `DirectoryAttributes::fromArray` conversions are left out. The listing yields the normalized records and folder paths they would receive, including a `false` record for a non-array resource. The keys `normalizeMetadata` builds (`size`, `timestamp`, `version`) are not the ones `FileAttributes::fromArray` reads (`file_size`, `last_modified`, `extra_metadata`), so through Flysystem a listed file carries only its path; `Listing.NormalizeAgreesWithGetMetadata` is about the record, not about what Flysystem makes of it.
- Concurrency and atomicity of multi-request operations (`move`, `deleteDirectory`) are left out. The model runs them sequentially against a store no one else changes.
- `tests/OverridenCloudinaryAdapter.php` (test delays), `tests/CloudinaryAdapterTest.php` (it targets a method the adapter does not have) and `src/Exception/NotImplementedException.php` (an empty exception class) are not modelled.
- PHP strings are byte strings, and the model uses `seq<char>`. Nothing is lost here: every character the escaper, `pathinfo`, `basename` and `dirname` look for is ASCII.
- The regular expression in `sanitizePath` (src/CloudinaryAdapter.php:55) escapes `|` and `=` only as the pair `|=`, never one by one, and the model follows it (`Escaper.PipeAndEqualsOnlyAsPair`).

## Findings

| source | as written | input that shows it | evidently intended | confidence | as-written member | corrected member |
|---|---|---|---|---|---|---|
| src/CloudinaryAdapter.php:137 | `move` passes the already-prefixed source to `delete`, and `delete` prefixes it again (line 99) | prefix "t/", assets "t/a" and "t/t/a", `move("a", "b")`: the rename moves "t/a" to "t/b", then `delete` looks up "t/t/a" and deletes it. Also prefix "t/", asset "t/x", `move("x", "t/x")`: the file just moved to "t/t/x" is deleted and the store ends up empty | delete the source under its own id, which after the rename holds nothing, so no other asset is touched | high; not executed | Adapter.MoveAsWritten | Adapter.Move |

`Adapter.MoveAsWrittenDeletesUnrelatedAsset` and `Adapter.MoveAsWrittenLosesFile` exhibit the two counterexamples, and `Adapter.MoveMovesExactly` proves the intended property of the corrected `Adapter.Move`.

=== FILE: adapter.dfy ===
/** `CloudinaryAdapter`: the Flysystem operations on top of the remote store.
    Every operation works on a public id built from the configured prefix and
    the path; every exact lookup is a `public_id:` search with the escaped id.
    An operation returns its result (a value, or the exception it throws), the
    store after it and the remote calls it made, in order. */
module Adapter {
  import opened Results
  import opened PhpStrings
  import Escaper
  import PathConverter
  import Base64
  import DataUri
  import opened RemoteStore

  /** The visibility policy under which `setVisibility` throws. */
  const ThrowOnVisibility: string := "throw"

  /** The constructor's settings: the `uri_prefix` option (absent is `null`)
      and the visibility policy. */
  datatype Config = Config(uriPrefix: Option<string>, visibilityHandling: string)

  /** The host libraries the adapter calls: the extension-to-MIME table, the
      content sniffer and `strtotime` (`None` where it returns false). */
  datatype Host = Host(
    lookup: PathConverter.MimeLookup,
    sniff: DataUri.Sniffer,
    strtotime: string -> Option<int>)

  /** The prefix as string concatenation sees it: `null` concatenates as "". */
  function Prefix(cfg: Config): string {
    cfg.uriPrefix.GetOr("")
  }

  /** The exceptions the operations throw. `Uncaught` is an `ApiError` that
      leaves the operation as it is. */
  datatype Failure =
    | UnableToWriteFile(message: string)
    | UnableToDeleteFile(message: string)
    | UnableToDeleteDirectory(message: string)
    | UnableToMoveFile(message: string)
    | UnableToCopyFile(source: string, destination: string)
    | UnableToSetVisibility(location: string)
    | UnableToRetrieveMetadata(location: string, metadataType: string, reason: string)
    | UnableToRetrieveMetadataMessage(message: string)
    | UnableToCheckFileExistence(message: string)
    | UnableToCreateDirectory(message: string)
    | UnableToReadFile
    | LogicError(message: string)
    | Uncaught(error: ApiError)

  datatype Outcome<T> = Outcome(result: Result<T, Failure>, remote: Remote, calls: seq<Call>)

  /** `new NotFound()`, thrown by the adapter itself: a `NotFound` with an
      empty message. */
  const MissingResource: ApiError := ApiError(NotFound, "")

  /** The exact-match search for one public id. */
  function ExactSearch(id: string): Call {
    Search(Some(ExactQuery(id)), None, None)
  }

  /** The resources an exact search for `id` finds. Because the escaper is
      undone exactly, the search finds the asset stored under `id` and
      nothing else. */
  function Lookup(r: Remote, id: string): (found: seq<Resource>)
    ensures found == (if id in r.assets then [Resource(id, r.assets[id])] else [])
  {
    Escaper.UnsanitizeSanitize(id);
    assert ExactQuery(id)[|PublicIdField|..] == Escaper.Sanitize(id);
    SearchExact(r, ExactQuery(id))
  }

  /** Turns a `NotFound` that escaped `o` into the failure `wrap` makes of its
      message, as `catch (NotFound $exception)` does. */
  function CatchNotFound<T>(o: Outcome<T>, wrap: string -> Failure): (c: Outcome<T>)
    ensures c.remote == o.remote && c.calls == o.calls
    ensures o.result.Ok? ==> c.result == o.result
    ensures (o.result.Err? && o.result.error.Uncaught? && o.result.error.error.kind == NotFound)
            ==> c.result == Err(wrap(o.result.error.error.message))
    ensures !(o.result.Err? && o.result.error.Uncaught? && o.result.error.error.kind == NotFound)
            ==> c.result == o.result
  {
    match o.result
    case Err(Uncaught(ApiError(NotFound, m))) => o.(result := Err(wrap(m)))
    case _ => o
  }

  // ---------------------------------------------------------------- writing

  /** The upload request of `write`: the data URI of the content, stored under
      the prefix and the converted path, overwriting, with the type left to the
      store and the caller's `async` setting. */
  function UploadCall(cfg: Config, host: Host, path: string, contents: seq<Base64.byte>, async: Option<bool>): (c: Call)
    ensures c.Upload? && c.overwrite && c.uploadType == "auto" && c.async == async
    ensures c.publicId == Prefix(cfg) + PathConverter.ConvertPathToPublicId(path, host.lookup)
    ensures DataUri.Parse(c.payload) == Some((host.sniff(contents), contents))
  {
    DataUri.ToStringRoundTrip(DataUri.DataUri(contents), host.sniff);
    Upload(DataUri.ToString(DataUri.DataUri(contents), host.sniff),
           Prefix(cfg) + PathConverter.ConvertPathToPublicId(path, host.lookup), true, "auto", async)
  }

  /** `write`: one upload; an `ApiError` becomes `UnableToWriteFile`. What the
      store keeps (`stored`) is decided remotely. */
  function Write(cfg: Config, host: Host, stored: Asset, r: Remote, faults: Faults,
                 path: string, contents: seq<Base64.byte>, async: Option<bool>): (o: Outcome<()>)
    ensures o.calls == [UploadCall(cfg, host, path, contents, async)]
    ensures o.result.Ok? <==> 0 !in faults
    ensures o.result.Err? ==> o.result.error == UnableToWriteFile(faults[0].message) && o.remote == r
    ensures o.result.Ok? ==> o.remote == Store(r, o.calls[0].publicId, stored)
  {
    var c := UploadCall(cfg, host, path, contents, async);
    if 0 in faults then Outcome(Err(UnableToWriteFile(faults[0].message)), r, [c])
    else Outcome(Ok(()), Store(r, c.publicId, stored), [c])
  }

  /** `writeStream`: `None` stands for a value that is not a stream, which
      throws a `LogicException` before any request; a stream's content is
      written as `write` writes it. */
  function WriteStream(cfg: Config, host: Host, stored: Asset, r: Remote, faults: Faults,
                       path: string, contents: Option<seq<Base64.byte>>, async: Option<bool>): (o: Outcome<()>)
    ensures contents.None? ==> o.result == Err(LogicError("Resource have to be a stream")) && o.calls == [] && o.remote == r
    ensures contents.Some? ==> o == Write(cfg, host, stored, r, faults, path, contents.value, async)
  {
    match contents
    case None => Outcome(Err(LogicError("Resource have to be a stream")), r, [])
    case Some(bytes) => Write(cfg, host, stored, r, faults, path, bytes, async)
  }

  /** A path the converter keeps as it is is found by `fileExists` once it
      is written. */
  lemma WriteThenExists(cfg: Config, host: Host, stored: Asset, r: Remote, path: string,
                        contents: seq<Base64.byte>, async: Option<bool>)
    requires PathConverter.ConvertPathToPublicId(path, host.lookup) == path
    ensures var w := Write(cfg, host, stored, r, map[], path, contents, async);
            w.result.Ok? && FileExists(cfg, w.remote, map[], path).result == Ok(true)
  {
  }

  /** A media file is stored without its extension, so `fileExists` on the
      path it was written under does not find it. */
  lemma WrittenMediaMissedByPath(cfg: Config, host: Host, stored: Asset, r: Remote, path: string,
                                 contents: seq<Base64.byte>, async: Option<bool>)
    requires PathConverter.ConvertPathToPublicId(path, host.lookup) != path
    requires Prefix(cfg) + path !in r.assets
    ensures var w := Write(cfg, host, stored, r, map[], path, contents, async);
            w.result.Ok? && FileExists(cfg, w.remote, map[], path).result == Ok(false)
  {
    var id := Prefix(cfg) + PathConverter.ConvertPathToPublicId(path, host.lookup);
    assert id != Prefix(cfg) + path by {
      assert id[|Prefix(cfg)|..] == PathConverter.ConvertPathToPublicId(path, host.lookup);
      assert (Prefix(cfg) + path)[|Prefix(cfg)|..] == path;
    }
  }

  // --------------------------------------------------------------- deleting

  /** `delete`: look the prefixed path up and delete what is found, under its
      own resource type. A missing file is not an error; a failing search
      escapes; a failing delete becomes `UnableToDeleteFile`. Its requests
      are at positions `at` and `at + 1`: 0 when it is called on its own, 2
      when `move` calls it after its search and rename. */
  function Delete(cfg: Config, r: Remote, faults: Faults, path: string, at: nat): (o: Outcome<()>)
    ensures 1 <= |o.calls| <= 2 && o.calls[0] == ExactSearch(Prefix(cfg) + path)
    ensures o.result.Err? ==> o.remote == r
    ensures o.result.Ok? ==> o.remote.folders == r.folders
                             && o.remote.assets == r.assets - {Prefix(cfg) + path}
  {
    var id := Prefix(cfg) + path;
    var q := ExactSearch(id);
    if at in faults then Outcome(Err(Uncaught(faults[at])), r, [q])
    else
      var found := Lookup(r, id);
      if found == [] then
        assert r.assets - {id} == r.assets;
        Outcome(Ok(()), r, [q])
      else
        var d := DeleteAssets([found[0].publicId], found[0].asset.resourceType);
        if at + 1 in faults then Outcome(Err(UnableToDeleteFile(faults[at + 1].message)), r, [q, d])
        else
          DeleteOneAsset(r, id);
          Outcome(Ok(()), Effect(r, d), [q, d])
  }

  /** Deleting one id under its own type removes that id and nothing else. */
  lemma DeleteOneAsset(r: Remote, id: string)
    requires id in r.assets
    ensures Effect(r, DeleteAssets([id], r.assets[id].resourceType)).assets == r.assets - {id}
  {
  }

  /** The error paths of `delete`: nothing found means no delete request; a
      failing search or delete leaves the store as it was. */
  lemma DeleteOutcomes(cfg: Config, r: Remote, faults: Faults, path: string, at: nat)
    ensures var id, o := Prefix(cfg) + path, Delete(cfg, r, faults, path, at);
            && (at in faults ==> o.result == Err(Uncaught(faults[at])))
            && (at !in faults && id !in r.assets ==> o == Outcome(Ok(()), r, [ExactSearch(id)]))
            && (at !in faults && id in r.assets ==>
                  o.calls == [ExactSearch(id), DeleteAssets([id], r.assets[id].resourceType)]
                  && (o.result.Ok? <==> at + 1 !in faults)
                  && (at + 1 in faults ==> o.result == Err(UnableToDeleteFile(faults[at + 1].message))))
  {
  }

  /** The directory `deleteDirectory` works on: the path itself when it
      already starts with the prefix, the prefixed path otherwise. */
  function DirectoryTarget(cfg: Config, path: string): (t: string)
    ensures StartsWith(t, Prefix(cfg))
    ensures StartsWith(path, Prefix(cfg)) ==> t == path
  {
    if StartsWith(path, Prefix(cfg)) then path else Prefix(cfg) + path
  }

  /** The guard is idempotent: a target passed back in is not prefixed again. */
  lemma DirectoryTargetIdempotent(cfg: Config, path: string)
    ensures DirectoryTarget(cfg, DirectoryTarget(cfg, path)) == DirectoryTarget(cfg, path)
  {
  }

  /** The requests of `deleteDirectory`, in order: bulk deletes for the raw,
      image and video types, then the folder itself. */
  function DirectoryCalls(t: string): seq<Call> {
    [DeleteAssetsByPrefix(t, Raw), DeleteAssetsByPrefix(t, Image), DeleteAssetsByPrefix(t, Video), DeleteFolder(t)]
  }

  /** `deleteDirectory`: the four requests until the first failure, which
      becomes `UnableToDeleteDirectory` and stops the rest. */
  function DeleteDirectory(cfg: Config, r: Remote, faults: Faults, path: string): (o: Outcome<()>)
    ensures 1 <= |o.calls| <= 4 && o.calls == DirectoryCalls(DirectoryTarget(cfg, path))[..|o.calls|]
    ensures o.result.Ok? <==> o.calls == DirectoryCalls(DirectoryTarget(cfg, path)) && forall p :: 0 <= p < 4 ==> p !in faults
    ensures o.result.Err? ==> |o.calls| - 1 in faults
                              && o.result.error == UnableToDeleteDirectory(faults[|o.calls| - 1].message)
                              && forall p :: 0 <= p < |o.calls| - 1 ==> p !in faults
  {
    var run := RunAll(r, faults, DirectoryCalls(DirectoryTarget(cfg, path)), 0);
    Outcome(if run.0.Some? then Err(UnableToDeleteDirectory(run.0.value.message)) else Ok(()), run.1, run.2)
  }

  /** The three bulk deletes together remove every asset whose id starts with
      the target, whatever its type, and keep every other asset. */
  lemma BulkDeletesClearPrefix(r: Remote, t: string)
    ensures var r3 := Effect(Effect(Effect(r, DeleteAssetsByPrefix(t, Raw)), DeleteAssetsByPrefix(t, Image)),
                             DeleteAssetsByPrefix(t, Video));
            && r3.folders == r.folders
            && (forall id :: id in r3.assets <==> id in r.assets && !StartsWith(id, t))
            && (forall id :: id in r3.assets ==> r3.assets[id] == r.assets[id])
  {
  }

  /** A successful `deleteDirectory` leaves no asset under the target (nor any
      whose id merely starts with the same characters) and no folder in its
      tree; everything else is kept. */
  lemma DeleteDirectoryClears(cfg: Config, r: Remote, faults: Faults, path: string)
    requires DeleteDirectory(cfg, r, faults, path).result.Ok?
    ensures var t, o := DirectoryTarget(cfg, path), DeleteDirectory(cfg, r, faults, path);
            && (forall id :: id in o.remote.assets <==> id in r.assets && !StartsWith(id, t))
            && (forall id :: id in o.remote.assets ==> o.remote.assets[id] == r.assets[id])
            && (forall f :: f in o.remote.folders <==> f in r.folders && !InTree(f, t))
  {
    var t := DirectoryTarget(cfg, path);
    var cs := DirectoryCalls(t);
    RunAllWithoutFaults(r, faults, cs, 0);
    var r1 := Effect(r, cs[0]);
    var r2 := Effect(r1, cs[1]);
    var r3 := Effect(r2, cs[2]);
    assert ApplyAll(r, cs) == Effect(r3, cs[3]) by {
      assert cs[1..][1..][1..][1..] == [];
      assert ApplyAll(r, cs) == ApplyAll(r1, cs[1..]);
      assert ApplyAll(r1, cs[1..]) == ApplyAll(r2, cs[1..][1..]);
      assert ApplyAll(r2, cs[1..][1..]) == ApplyAll(r3, cs[1..][1..][1..]);
      assert ApplyAll(r3, cs[1..][1..][1..]) == ApplyAll(Effect(r3, cs[3]), []);
    }
    BulkDeletesClearPrefix(r, t);
  }

  // ------------------------------------------------------------------ moving

  /** The body of `move` inside its `try`: search the prefixed source (a miss
      throws `NotFound`), rename it to the prefixed destination under the type
      found, then call `delete` with `deleteArg`. The requests of that `delete`
      are requests 2 and 3 of the move. */
  function MoveSteps(cfg: Config, r: Remote, faults: Faults, src: string, dst: string, deleteArg: string): (o: Outcome<()>)
    ensures 1 <= |o.calls| && o.calls[0] == ExactSearch(Prefix(cfg) + src)
    ensures Prefix(cfg) + src !in r.assets && 0 !in faults ==> o == Outcome(Err(Uncaught(MissingResource)), r, o.calls)
  {
    var s, d := Prefix(cfg) + src, Prefix(cfg) + dst;
    var q := ExactSearch(s);
    if 0 in faults then Outcome(Err(Uncaught(faults[0])), r, [q])
    else
      var found := Lookup(r, s);
      if found == [] then Outcome(Err(Uncaught(MissingResource)), r, [q])
      else
        var rn := Rename(s, d, found[0].asset.resourceType, "true");
        if 1 in faults then Outcome(Err(Uncaught(faults[1])), r, [q, rn])
        else
          var del := Delete(cfg, Effect(r, rn), faults, deleteArg, 2);
          Outcome(del.result, del.remote, [q, rn] + del.calls)
  }

  /** `move` as written: `delete` receives the source after it was already
      prefixed, and prefixes it a second time. */
  function MoveAsWritten(cfg: Config, r: Remote, faults: Faults, src: string, dst: string): (o: Outcome<()>)
    ensures o.calls == MoveSteps(cfg, r, faults, src, dst, Prefix(cfg) + src).calls
    ensures o.result.Err? && o.result.error.Uncaught? ==> o.result.error.error.kind != NotFound
  {
    CatchNotFound(MoveSteps(cfg, r, faults, src, dst, Prefix(cfg) + src), m => UnableToMoveFile(m))
  }

  /** `move` with the evident intent: the source is deleted under its own id. */
  function Move(cfg: Config, r: Remote, faults: Faults, src: string, dst: string): (o: Outcome<()>)
    ensures o.calls == MoveSteps(cfg, r, faults, src, dst, src).calls
    ensures o.result.Err? && o.result.error.Uncaught? ==> o.result.error.error.kind != NotFound
  {
    CatchNotFound(MoveSteps(cfg, r, faults, src, dst, src), m => UnableToMoveFile(m))
  }

  /** A missing source is `UnableToMoveFile` with no rename: the search is the
      only request. */
  lemma MoveMissingSource(cfg: Config, r: Remote, faults: Faults, src: string, dst: string)
    requires Prefix(cfg) + src !in r.assets && 0 !in faults
    ensures Move(cfg, r, faults, src, dst) == Outcome(Err(UnableToMoveFile("")), r, [ExactSearch(Prefix(cfg) + src)])
    ensures MoveAsWritten(cfg, r, faults, src, dst) == Move(cfg, r, faults, src, dst)
  {
  }

  /** A found source is renamed to the prefixed destination under its own
      type, with `overwrite` passed as the string "true", by `move` as
      written and by the corrected move alike. */
  lemma MoveRenames(cfg: Config, r: Remote, faults: Faults, src: string, dst: string)
    requires Prefix(cfg) + src in r.assets && 0 !in faults
    ensures var s := Prefix(cfg) + src;
            var o := Move(cfg, r, faults, src, dst);
            |o.calls| >= 2 && o.calls[1] == Rename(s, Prefix(cfg) + dst, r.assets[s].resourceType, "true")
    ensures var s := Prefix(cfg) + src;
            var o := MoveAsWritten(cfg, r, faults, src, dst);
            |o.calls| >= 2 && o.calls[1] == Rename(s, Prefix(cfg) + dst, r.assets[s].resourceType, "true")
  {
  }

  /** Only `NotFound` becomes `UnableToMoveFile`: any other error of the
      rename escapes `move` as it is, as written and corrected. */
  lemma MoveLetsOtherErrorsEscape(cfg: Config, r: Remote, faults: Faults, src: string, dst: string, e: ApiError)
    requires Prefix(cfg) + src in r.assets && faults == map[1 := e]
    ensures e.kind == NotFound ==> Move(cfg, r, faults, src, dst).result == Err(UnableToMoveFile(e.message))
    ensures e.kind != NotFound ==> Move(cfg, r, faults, src, dst).result == Err(Uncaught(e))
    ensures e.kind == NotFound ==> MoveAsWritten(cfg, r, faults, src, dst).result == Err(UnableToMoveFile(e.message))
    ensures e.kind != NotFound ==> MoveAsWritten(cfg, r, faults, src, dst).result == Err(Uncaught(e))
  {
  }

  /** With no failures and two different ids, `move` leaves the source id
      empty, puts the source's asset under the destination id, and keeps
      every other asset. */
  lemma MoveMovesExactly(cfg: Config, r: Remote, src: string, dst: string)
    requires Prefix(cfg) + src in r.assets && src != dst
    ensures var s, d, o := Prefix(cfg) + src, Prefix(cfg) + dst, Move(cfg, r, map[], src, dst);
            && o.result.Ok?
            && o.remote.assets == (r.assets - {s})[d := r.assets[s]]
            && o.remote.folders == r.folders
  {
    var s, d := Prefix(cfg) + src, Prefix(cfg) + dst;
    var r1 := Effect(r, Rename(s, d, r.assets[s].resourceType, "true"));
    assert s != d by {
      assert s[|Prefix(cfg)|..] == src && d[|Prefix(cfg)|..] == dst;
    }
    assert r1.assets == (r.assets - {s})[d := r.assets[s]];
    assert s !in r1.assets;
    assert r1.assets - {s} == r1.assets;
  }

  /** The corrected move of a file onto itself deletes it: the rename
      changes nothing and the `delete` that follows finds the file still
      there. */
  lemma MoveOntoItselfDeletes(cfg: Config, r: Remote, src: string)
    requires Prefix(cfg) + src in r.assets
    ensures Move(cfg, r, map[], src, src).result.Ok?
    ensures Move(cfg, r, map[], src, src).remote.assets == r.assets - {Prefix(cfg) + src}
  {
    var s := Prefix(cfg) + src;
    var r1 := Effect(r, Rename(s, s, r.assets[s].resourceType, "true"));
    assert r1.assets == r.assets;
    assert r1 == r;
  }

  /** Without a prefix the double prefixing is invisible: both versions agree. */
  lemma MoveAgreesWithoutPrefix(cfg: Config, r: Remote, faults: Faults, src: string, dst: string)
    requires Prefix(cfg) == ""
    ensures MoveAsWritten(cfg, r, faults, src, dst) == Move(cfg, r, faults, src, dst)
  {
    assert Prefix(cfg) + src == src;
  }

  /** With prefix "t/", moving "a" to "b" as written also deletes the
      unrelated asset "t/t/a", because `delete` looks up "t/" + "t/a". */
  lemma MoveAsWrittenDeletesUnrelatedAsset(a: Asset)
    ensures var cfg, r := Config(Some("t/"), ThrowOnVisibility), Remote(map["t/a" := a, "t/t/a" := a], []);
            MoveAsWritten(cfg, r, map[], "a", "b").result.Ok?
    ensures var cfg, r := Config(Some("t/"), ThrowOnVisibility), Remote(map["t/a" := a, "t/t/a" := a], []);
            MoveAsWritten(cfg, r, map[], "a", "b").remote.assets == map["t/b" := a]
    ensures var cfg, r := Config(Some("t/"), ThrowOnVisibility), Remote(map["t/a" := a, "t/t/a" := a], []);
            Move(cfg, r, map[], "a", "b").remote.assets == map["t/t/a" := a, "t/b" := a]
  {
    var cfg, r := Config(Some("t/"), ThrowOnVisibility), Remote(map["t/a" := a, "t/t/a" := a], []);
    assert Prefix(cfg) + "a" == "t/a" && Prefix(cfg) + "b" == "t/b";
    var r1 := Effect(r, Rename("t/a", "t/b", a.resourceType, "true"));
    assert r1.assets == map["t/t/a" := a, "t/b" := a];
    CleanUpOfTwoIds(cfg, r1, a);
  }

  /** The two clean-ups of the counterexample above: `delete("t/a")` under
      prefix "t/" removes "t/t/a", `delete("a")` finds nothing. */
  lemma CleanUpOfTwoIds(cfg: Config, r1: Remote, a: Asset)
    requires cfg.uriPrefix == Some("t/") && r1.assets == map["t/t/a" := a, "t/b" := a]
    ensures Delete(cfg, r1, map[], "t/a", 2).result.Ok? && Delete(cfg, r1, map[], "t/a", 2).remote.assets == map["t/b" := a]
    ensures Delete(cfg, r1, map[], "a", 2).remote.assets == r1.assets
  {
    assert Prefix(cfg) + "t/a" == "t/t/a";
    assert Prefix(cfg) + "a" == "t/a";
    assert "t/a" !in r1.assets;
  }

  /** The clean-up `delete` makes a second search, request 2, and that
      search can throw after the rename has already changed the store: a
      `NotFound` there becomes `UnableToMoveFile`, any other error escapes,
      and the renamed asset stays under the destination. The corrected move
      searches the source id again; `move` as written searches the source id
      with the prefix added a second time. */
  lemma MoveCleanupSearchFails(cfg: Config, r: Remote, src: string, dst: string, e: ApiError)
    requires Prefix(cfg) + src in r.assets
    ensures var s, d, o := Prefix(cfg) + src, Prefix(cfg) + dst, Move(cfg, r, map[2 := e], src, dst);
            && o.calls == [ExactSearch(s), Rename(s, d, r.assets[s].resourceType, "true"), ExactSearch(s)]
            && o.remote.assets == (r.assets - {s})[d := r.assets[s]]
            && (e.kind == NotFound ==> o.result == Err(UnableToMoveFile(e.message)))
            && (e.kind != NotFound ==> o.result == Err(Uncaught(e)))
    ensures var s, d, o := Prefix(cfg) + src, Prefix(cfg) + dst, MoveAsWritten(cfg, r, map[2 := e], src, dst);
            && o.calls == [ExactSearch(s), Rename(s, d, r.assets[s].resourceType, "true"), ExactSearch(Prefix(cfg) + s)]
            && o.remote.assets == (r.assets - {s})[d := r.assets[s]]
            && (e.kind == NotFound ==> o.result == Err(UnableToMoveFile(e.message)))
            && (e.kind != NotFound ==> o.result == Err(Uncaught(e)))
  {
  }

  /** As written, moving a file onto itself under prefix "t/" keeps it: the
      rename changes nothing and the clean-up looks for "t/t/a", which is
      absent. */
  lemma MoveAsWrittenOntoItselfKeeps(a: Asset)
    ensures var cfg, r := Config(Some("t/"), ThrowOnVisibility), Remote(map["t/a" := a], []);
            && MoveAsWritten(cfg, r, map[], "a", "a").result.Ok?
            && MoveAsWritten(cfg, r, map[], "a", "a").remote.assets == r.assets
            && Move(cfg, r, map[], "a", "a").remote.assets == map[]
  {
    var cfg, r := Config(Some("t/"), ThrowOnVisibility), Remote(map["t/a" := a], []);
    assert Prefix(cfg) + "a" == "t/a";
    assert Prefix(cfg) + "t/a" == "t/t/a";
    var r1 := Effect(r, Rename("t/a", "t/a", a.resourceType, "true"));
    assert r1.assets == r.assets;
    assert "t/t/a" !in r1.assets;
    assert r.assets - {"t/a"} == map[];
  }

  /** As written, with prefix "t/", moving "x" to "t/x" deletes the file it
      has just moved: the clean-up looks up "t/t/x", the new id. The store
      ends up empty; the corrected move keeps the file under "t/t/x". */
  lemma MoveAsWrittenLosesFile(a: Asset)
    ensures var cfg, r := Config(Some("t/"), ThrowOnVisibility), Remote(map["t/x" := a], []);
            && MoveAsWritten(cfg, r, map[], "x", "t/x").result.Ok?
            && MoveAsWritten(cfg, r, map[], "x", "t/x").remote.assets == map[]
            && Move(cfg, r, map[], "x", "t/x").remote.assets == map["t/t/x" := a]
  {
    var cfg, r := Config(Some("t/"), ThrowOnVisibility), Remote(map["t/x" := a], []);
    assert Prefix(cfg) + "x" == "t/x";
    assert Prefix(cfg) + "t/x" == "t/t/x";
    var r1 := Effect(r, Rename("t/x", "t/t/x", a.resourceType, "true"));
    assert r1.assets == map["t/t/x" := a];
    assert r1.assets - {"t/t/x"} == map[];
    assert "t/x" !in r1.assets;
    assert r1.assets - {"t/x"} == r1.assets;
  }

  // ---------------------------------------------------------- unsupported

  /** `copy` always throws, before any request. */
  function Copy(src: string, dst: string): (res: Result<(), Failure>)
    ensures res.Err? && res.error.UnableToCopyFile?
    ensures res.error.source == src && res.error.destination == dst
  {
    Err(UnableToCopyFile(src, dst))
  }

  /** `setVisibility` changes nothing remotely and throws iff the policy is
      "throw". */
  function SetVisibility(cfg: Config, path: string, visibility: string): (res: Result<(), Failure>)
    ensures res.Err? <==> cfg.visibilityHandling == ThrowOnVisibility
    ensures res.Err? ==> res.error == UnableToSetVisibility(path)
  {
    if ThrowOnVisibility == cfg.visibilityHandling then Err(UnableToSetVisibility(path)) else Ok(())
  }

  /** `visibility` always throws, naming the path and the attribute. */
  function Visibility(path: string): (res: Result<(), Failure>)
    ensures res.Err? && res.error.UnableToRetrieveMetadata?
    ensures res.error.location == path && res.error.metadataType == "visibility"
  {
    Err(UnableToRetrieveMetadata(path, "visibility", "Cloudinary does not support visibility"))
  }

  /** `mimeType` always throws, naming the path and the attribute. */
  function MimeType(path: string): (res: Result<(), Failure>)
    ensures res.Err? && res.error.UnableToRetrieveMetadata?
    ensures res.error.location == path && res.error.metadataType == "mime_type"
  {
    Err(UnableToRetrieveMetadata(path, "mime_type", "Cloudinary does not support MIME type"))
  }

  // ----------------------------------------------------------- inspecting

  /** `fileExists`: whether the exact search finds the prefixed path; any
      failure becomes `UnableToCheckFileExistence`. */
  function FileExists(cfg: Config, r: Remote, faults: Faults, path: string): (o: Outcome<bool>)
    ensures o.calls == [ExactSearch(Prefix(cfg) + path)] && o.remote == r
    ensures o.result.Ok? <==> 0 !in faults
    ensures o.result.Ok? ==> (o.result.value <==> Prefix(cfg) + path in r.assets)
    ensures o.result.Err? ==> o.result.error == UnableToCheckFileExistence(faults[0].message)
  {
    var q := ExactSearch(Prefix(cfg) + path);
    if 0 in faults then Outcome(Err(UnableToCheckFileExistence(faults[0].message)), r, [q])
    else Outcome(Ok(Lookup(r, Prefix(cfg) + path) != []), r, [q])
  }

  /** The extra metadata of a file, as `getMetadata` and the listing record
      it: the public id, the size (`None` for false), the parsed creation
      time (`None` for false) and the version, 1 when absent. */
  datatype Metadata = Metadata(path: string, size: Option<int>, timestamp: Option<int>, version: int)

  /** Flysystem's `FileAttributes`. */
  datatype FileAttributes = FileAttributes(
    path: string,
    fileSize: Option<int>,
    visibility: Option<string>,
    lastModified: Option<int>,
    mimeType: Option<string>,
    extra: Metadata)

  function MetadataOf(res: Resource, strtotime: string -> Option<int>): (m: Metadata)
    ensures m.path == res.publicId && m.size == res.asset.bytes
    ensures res.asset.createdAt.None? ==> m.timestamp.None?
    ensures res.asset.createdAt.Some? ==> m.timestamp == strtotime(res.asset.createdAt.value)
    ensures res.asset.version.None? ==> m.version == 1
    ensures res.asset.version.Some? ==> m.version == res.asset.version.value
  {
    Metadata(
      res.publicId,
      res.asset.bytes,
      match res.asset.createdAt case Some(c) => strtotime(c) case None => None,
      res.asset.version.GetOr(1))
  }

  /** The time `FileAttributes` receives: `strtotime` of the creation time,
      where false (no creation time, or one it cannot parse) is read as 0. */
  function LastModifiedOf(a: Asset, strtotime: string -> Option<int>): int {
    match a.createdAt
    case Some(c) => strtotime(c).GetOr(0)
    case None => 0
  }

  /** `getMetadata`: the attributes of the asset stored under the prefixed
      path. A miss throws `NotFound`; search errors escape. */
  function GetMetadata(cfg: Config, host: Host, r: Remote, faults: Faults, path: string): (o: Outcome<FileAttributes>)
    ensures o.calls == [ExactSearch(Prefix(cfg) + path)] && o.remote == r
    ensures o.result.Ok? <==> 0 !in faults && Prefix(cfg) + path in r.assets
    ensures 0 in faults ==> o.result == Err(Uncaught(faults[0]))
    ensures 0 !in faults && Prefix(cfg) + path !in r.assets ==> o.result == Err(Uncaught(MissingResource))
    ensures o.result.Ok? ==>
              var id := Prefix(cfg) + path;
              var a := r.assets[id];
              o.result.value == FileAttributes(id, a.bytes, Some("true"), Some(LastModifiedOf(a, host.strtotime)),
                                               Some("file"), MetadataOf(Resource(id, a), host.strtotime))
  {
    var id := Prefix(cfg) + path;
    var q := ExactSearch(id);
    if 0 in faults then Outcome(Err(Uncaught(faults[0])), r, [q])
    else
      var found := Lookup(r, id);
      if found == [] then Outcome(Err(Uncaught(MissingResource)), r, [q])
      else
        var res := found[0];
        Outcome(Ok(FileAttributes(id, res.asset.bytes, Some("true"), Some(LastModifiedOf(res.asset, host.strtotime)),
                                  Some("file"), MetadataOf(res, host.strtotime))), r, [q])
  }

  /** The failure `lastModified` and `fileSize` make of a `NotFound`: an
      `UnableToRetrieveMetadata` built from the message alone, with no
      location or attribute. */
  function MetadataMissing(message: string): Failure {
    UnableToRetrieveMetadataMessage(message)
  }

  /** `lastModified`: `getMetadata`, with `NotFound` turned into
      `UnableToRetrieveMetadata`. */
  function LastModified(cfg: Config, host: Host, r: Remote, faults: Faults, path: string): (o: Outcome<FileAttributes>)
    ensures o.calls == GetMetadata(cfg, host, r, faults, path).calls
    ensures o.result.Ok? <==> GetMetadata(cfg, host, r, faults, path).result.Ok?
    ensures o.result.Ok? ==>
              o.result.value.lastModified == Some(LastModifiedOf(r.assets[Prefix(cfg) + path], host.strtotime))
  {
    CatchNotFound(GetMetadata(cfg, host, r, faults, path), MetadataMissing)
  }

  /** `fileSize`: the same request and error handling as `lastModified`; the
      size it reports is the stored `bytes`. */
  function FileSize(cfg: Config, host: Host, r: Remote, faults: Faults, path: string): (o: Outcome<FileAttributes>)
    ensures o.calls == GetMetadata(cfg, host, r, faults, path).calls
    ensures o.result.Ok? <==> GetMetadata(cfg, host, r, faults, path).result.Ok?
    ensures o.result.Ok? ==> o.result.value.fileSize == r.assets[Prefix(cfg) + path].bytes
  {
    CatchNotFound(GetMetadata(cfg, host, r, faults, path), MetadataMissing)
  }

  /** A missing file is `UnableToRetrieveMetadata` for `lastModified` and
      `fileSize`; a search error of another kind escapes them. */
  lemma MetadataErrors(cfg: Config, host: Host, r: Remote, faults: Faults, path: string)
    ensures && (0 !in faults && Prefix(cfg) + path !in r.assets ==>
                  LastModified(cfg, host, r, faults, path).result == Err(MetadataMissing(""))
                  && FileSize(cfg, host, r, faults, path).result == Err(MetadataMissing("")))
            && (0 in faults && faults[0].kind == NotFound ==>
                  LastModified(cfg, host, r, faults, path).result == Err(MetadataMissing(faults[0].message))
                  && FileSize(cfg, host, r, faults, path).result == Err(MetadataMissing(faults[0].message)))
            && (0 in faults && faults[0].kind != NotFound ==>
                  LastModified(cfg, host, r, faults, path).result == Err(Uncaught(faults[0]))
                  && FileSize(cfg, host, r, faults, path).result == Err(Uncaught(faults[0])))
  {
  }

  /** `url`: the delivery URL of the asset under the prefixed path; a miss is
      `UnableToReadFile`. */
  function Url(cfg: Config, r: Remote, faults: Faults, path: string): (o: Outcome<string>)
    ensures o.calls == [ExactSearch(Prefix(cfg) + path)] && o.remote == r
    ensures o.result.Ok? <==> 0 !in faults && Prefix(cfg) + path in r.assets
    ensures o.result.Ok? ==> o.result.value == r.assets[Prefix(cfg) + path].url
    ensures 0 !in faults && Prefix(cfg) + path !in r.assets ==> o.result == Err(UnableToReadFile)
    ensures 0 in faults ==> o.result == Err(Uncaught(faults[0]))
  {
    var id := Prefix(cfg) + path;
    var q := ExactSearch(id);
    if 0 in faults then Outcome(Err(Uncaught(faults[0])), r, [q])
    else
      var found := Lookup(r, id);
      if |found| == 0 then Outcome(Err(UnableToReadFile), r, [q])
      else Outcome(Ok(found[0].asset.url), r, [q])
  }

  // ------------------------------------------------------------ directories

  /** `createDirectory`: creates the folder under the prefixed path. */
  function CreateDirectory(cfg: Config, r: Remote, faults: Faults, path: string): (o: Outcome<()>)
    ensures o.calls == [CreateFolder(Prefix(cfg) + path)]
    ensures o.result.Ok? <==> 0 !in faults
    ensures o.result.Err? ==> o.remote == r && o.result.error == UnableToCreateDirectory(faults[0].message)
    ensures o.result.Ok? ==> o.remote.assets == r.assets
                             && (forall f :: f in o.remote.folders <==> f in r.folders || f == Prefix(cfg) + path)
  {
    var c := CreateFolder(Prefix(cfg) + path);
    if 0 in faults then Outcome(Err(UnableToCreateDirectory(faults[0].message)), r, [c])
    else Outcome(Ok(()), Effect(r, c), [c])
  }

  /** Creating a directory that exists changes nothing: twice is once. */
  lemma CreateDirectoryIdempotent(cfg: Config, r: Remote, path: string)
    ensures var once := CreateDirectory(cfg, r, map[], path).remote;
            CreateDirectory(cfg, once, map[], path).remote == once
  {
  }

  /** The folder listing `directoryExists` consults: the subfolders of the
      prefixed path's dirname when it holds a slash, the root folders
      otherwise. */
  function ExistenceQuery(id: string): (c: Call)
    ensures c.RootFolders? <==> '/' !in id
    ensures '/' in id ==> c == SubFolders(Dirname(id))
  {
    if '/' in id then SubFolders(Dirname(id)) else RootFolders
  }

  /** `directoryExists`: whether the consulted listing has a folder whose path
      is exactly the prefixed path. Errors escape. */
  function DirectoryExists(cfg: Config, r: Remote, faults: Faults, path: string): (o: Outcome<bool>)
    ensures o.calls == [ExistenceQuery(Prefix(cfg) + path)] && o.remote == r
    ensures o.result.Ok? <==> 0 !in faults
    ensures o.result.Err? ==> o.result.error == Uncaught(faults[0])
    ensures o.result.Ok? && o.result.value ==> Prefix(cfg) + path in r.folders
  {
    var id := Prefix(cfg) + path;
    var c := ExistenceQuery(id);
    if 0 in faults then Outcome(Err(Uncaught(faults[0])), r, [c])
    else
      var dirs := match c case SubFolders(p) => SubFolderPaths(r, p) case _ => RootFolderPaths(r);
      Outcome(Ok(id in dirs), r, [c])
  }

  /** A well-formed folder path: non-empty components separated by single
      slashes. */
  predicate IsFolderPath(p: string) {
    && p != ""
    && p[0] != '/' && p[|p| - 1] != '/'
    && forall i :: 0 <= i < |p| - 1 ==> !(p[i] == '/' && p[i + 1] == '/')
  }

  /** A well-formed path with a slash is a direct child of its dirname. */
  lemma ChildOfDirname(id: string)
    requires IsFolderPath(id) && '/' in id
    ensures IsChildOf(id, Dirname(id))
  {
    var k := LastIndexOf(id, '/').value;
    var dir, name := id[..k], id[k + 1..];
    assert id[k] == '/';
    assert k != 0;
    assert id[k - 1] != '/';
    assert id[|id| - 1] != '/';
    assert id == dir + "/" + name;
    DirnameOfChild(dir, name);
    assert id[..|dir| + 1] == dir + "/";
  }

  /** For a well-formed prefixed path, `directoryExists` is exactly folder
      membership. */
  lemma DirectoryExistsExact(cfg: Config, r: Remote, faults: Faults, path: string)
    requires IsFolderPath(Prefix(cfg) + path)
    requires 0 !in faults
    ensures DirectoryExists(cfg, r, faults, path).result == Ok(Prefix(cfg) + path in r.folders)
  {
    var id := Prefix(cfg) + path;
    if '/' in id {
      ChildOfDirname(id);
    }
  }
}

=== FILE: base64.dfy ===
/** Base64 as in section 4 of RFC 4648, the payload encoding of a data URI
    (PHP's `base64_encode`): the standard alphabet A-Z a-z 0-9 + /, each
    3-byte group written as 4 characters, and a final group of 1 or 2 bytes
    padded with "==" or "=". `Decode` is the strict inverse: it rejects
    characters outside the alphabet, misplaced padding and non-zero pad bits. */
module Base64 {
  import opened Results

  type byte = x: int | 0 <= x < 256

  /** Characters of the standard alphabet. */
  predicate IsAlphabetChar(c: char) {
    ('A' <= c <= 'Z') || ('a' <= c <= 'z') || ('0' <= c <= '9') || c == '+' || c == '/'
  }

  /** The alphabet character for a 6-bit value. */
  function CharOf(v: int): (c: char)
    requires 0 <= v < 64
    ensures IsAlphabetChar(c) && c != '='
  {
    if v < 26 then (65 + v) as char
    else if v < 52 then (97 + v - 26) as char
    else if v < 62 then (48 + v - 52) as char
    else if v == 62 then '+'
    else '/'
  }

  /** The 6-bit value of an alphabet character. */
  function ValueOf(c: char): (v: int)
    requires IsAlphabetChar(c)
    ensures 0 <= v < 64 && CharOf(v) == c
  {
    if 'A' <= c <= 'Z' then c as int - 65
    else if 'a' <= c <= 'z' then c as int - 97 + 26
    else if '0' <= c <= '9' then c as int - 48 + 52
    else if c == '+' then 62
    else 63
  }

  lemma ValueOfCharOf(v: int)
    requires 0 <= v < 64
    ensures ValueOf(CharOf(v)) == v
  {
  }

  /** How many '=' close the encoding of `n` bytes. */
  function PadCount(n: nat): nat {
    (3 - n % 3) % 3
  }

  /** Three bytes as four characters. */
  function EncodeGroup(a: byte, b: byte, c: byte): seq<char> {
    [CharOf(a / 4), CharOf((a % 4) * 16 + b / 16), CharOf((b % 16) * 4 + c / 64), CharOf(c % 64)]
  }

  /** A final single byte: two characters and "==". */
  function EncodeOne(a: byte): seq<char> {
    [CharOf(a / 4), CharOf((a % 4) * 16), '=', '=']
  }

  /** Two final bytes: three characters and "=". */
  function EncodeTwo(a: byte, b: byte): seq<char> {
    [CharOf(a / 4), CharOf((a % 4) * 16 + b / 16), CharOf((b % 16) * 4), '=']
  }

  /** `base64_encode`: 4 characters per started group of 3 bytes. */
  function Encode(bs: seq<byte>): (r: seq<char>)
    ensures |r| == 4 * ((|bs| + 2) / 3)
    decreases |bs|
  {
    if |bs| == 0 then []
    else if |bs| == 1 then EncodeOne(bs[0])
    else if |bs| == 2 then EncodeTwo(bs[0], bs[1])
    else EncodeGroup(bs[0], bs[1], bs[2]) + Encode(bs[3..])
  }

  /** '=' exactly in the last `pad` positions, alphabet characters elsewhere. */
  predicate PaddedShape(r: seq<char>, pad: nat) {
    && (forall i :: 0 <= i < |r| ==> (r[i] == '=' <==> |r| - pad <= i))
    && (forall i :: 0 <= i < |r| && r[i] != '=' ==> IsAlphabetChar(r[i]))
  }

  /** A full group in front keeps the shape of what follows it. */
  lemma PaddedShapeCons(g: seq<char>, rest: seq<char>, pad: nat)
    requires |g| == 4 && forall i :: 0 <= i < 4 ==> g[i] != '=' && IsAlphabetChar(g[i])
    requires pad <= |rest| && PaddedShape(rest, pad)
    ensures PaddedShape(g + rest, pad)
  {
    var r := g + rest;
    forall i | 0 <= i < |r|
      ensures (r[i] == '=' <==> |r| - pad <= i)
      ensures r[i] != '=' ==> IsAlphabetChar(r[i])
    {
      if i < 4 {
        assert r[i] == g[i];
      } else {
        assert r[i] == rest[i - 4];
      }
    }
  }

  lemma EncodeShapeStep(bs: seq<byte>)
    requires |bs| >= 3 && PaddedShape(Encode(bs[3..]), PadCount(|bs| - 3))
    ensures PaddedShape(Encode(bs), PadCount(|bs|))
  {
    var g := EncodeGroup(bs[0], bs[1], bs[2]);
    assert Encode(bs) == g + Encode(bs[3..]);
    PadCountStep(|bs|);
    GroupChars(bs[0], bs[1], bs[2]);
    PaddedShapeCons(g, Encode(bs[3..]), PadCount(|bs|));
  }

  lemma PadCountStep(n: nat)
    requires n >= 3
    ensures PadCount(n) == PadCount(n - 3)
  {
    assert n % 3 == (n - 3) % 3;
  }

  /** A full group is four alphabet characters and no padding. */
  lemma GroupChars(a: byte, b: byte, c: byte)
    ensures forall i :: 0 <= i < 4 ==> EncodeGroup(a, b, c)[i] != '=' && IsAlphabetChar(EncodeGroup(a, b, c)[i])
  {
    var v1 := (a % 4) * 16 + b / 16;
    var v2 := (b % 16) * 4 + c / 64;
    assert 0 <= v1 < 64;
    assert 0 <= v2 < 64;
  }

  /** The shape of an encoding: '=' exactly in the last `PadCount` positions
      (none, one or two) and alphabet characters everywhere else. */
  lemma {:induction false} EncodeShape(bs: seq<byte>)
    ensures PaddedShape(Encode(bs), PadCount(|bs|))
    decreases |bs|
  {
    if |bs| == 1 {
      assert PadCount(1) == 2;
      assert Encode(bs) == EncodeOne(bs[0]);
    } else if |bs| == 2 {
      assert PadCount(2) == 1;
      assert Encode(bs) == EncodeTwo(bs[0], bs[1]);
    } else if |bs| >= 3 {
      EncodeShape(bs[3..]);
      EncodeShapeStep(bs);
    }
  }

  /** Four alphabet characters as three bytes; `None` for anything else. */
  function DecodeGroup(q: seq<char>): Option<seq<byte>>
    requires |q| == 4
  {
    if IsAlphabetChar(q[0]) && IsAlphabetChar(q[1]) && IsAlphabetChar(q[2]) && IsAlphabetChar(q[3]) then
      var v0, v1, v2, v3 := ValueOf(q[0]), ValueOf(q[1]), ValueOf(q[2]), ValueOf(q[3]);
      Some([v0 * 4 + v1 / 16, (v1 % 16) * 16 + v2 / 4, (v2 % 4) * 64 + v3])
    else None
  }

  /** The last group, which may end in "==" (one byte) or "=" (two bytes). */
  function DecodeLastGroup(q: seq<char>): Option<seq<byte>>
    requires |q| == 4
  {
    if q[2] == '=' && q[3] == '=' then
      if IsAlphabetChar(q[0]) && IsAlphabetChar(q[1]) && ValueOf(q[1]) % 16 == 0 then
        Some([ValueOf(q[0]) * 4 + ValueOf(q[1]) / 16])
      else None
    else if q[3] == '=' then
      if IsAlphabetChar(q[0]) && IsAlphabetChar(q[1]) && IsAlphabetChar(q[2]) && ValueOf(q[2]) % 4 == 0 then
        var v0, v1, v2 := ValueOf(q[0]), ValueOf(q[1]), ValueOf(q[2]);
        Some([v0 * 4 + v1 / 16, (v1 % 16) * 16 + v2 / 4])
      else None
    else DecodeGroup(q)
  }

  /** Strict decoding; `None` when `s` is not the encoding of any byte string. */
  function Decode(s: seq<char>): Option<seq<byte>>
    decreases |s|
  {
    if |s| == 0 then Some([])
    else if |s| < 4 then None
    else if |s| == 4 then DecodeLastGroup(s)
    else match DecodeGroup(s[..4])
      case None => None
      case Some(g) =>
        match Decode(s[4..])
        case None => None
        case Some(rest) => Some(g + rest)
  }

  /** The 6-bit values of a full group, read back as bytes. */
  lemma GroupArithmetic(a: byte, b: byte, c: byte)
    ensures var v1, v2 := (a % 4) * 16 + b / 16, (b % 16) * 4 + c / 64;
            && (a / 4) * 4 + v1 / 16 == a
            && (v1 % 16) * 16 + v2 / 4 == b
            && (v2 % 4) * 64 + c % 64 == c
  {
    var v1, v2 := (a % 4) * 16 + b / 16, (b % 16) * 4 + c / 64;
    assert v1 / 16 == a % 4 && v1 % 16 == b / 16;
    assert v2 / 4 == b % 16 && v2 % 4 == c / 64;
  }

  lemma GroupRoundTrip(a: byte, b: byte, c: byte)
    ensures DecodeGroup(EncodeGroup(a, b, c)) == Some([a, b, c])
  {
    var v0, v1, v2, v3 := a / 4, (a % 4) * 16 + b / 16, (b % 16) * 4 + c / 64, c % 64;
    ValueOfCharOf(v0);
    ValueOfCharOf(v1);
    ValueOfCharOf(v2);
    ValueOfCharOf(v3);
    GroupArithmetic(a, b, c);
  }

  /** A single final byte comes back from its "==" group. */
  lemma OneByteRoundTrip(a: byte)
    ensures Decode(Encode([a])) == Some([a])
  {
    var v0, v1 := a / 4, (a % 4) * 16;
    assert v1 % 16 == 0 && v1 / 16 == a % 4;
    ValueOfCharOf(v0);
    ValueOfCharOf(v1);
    var e := Encode([a]);
    assert e == EncodeOne(a) == [CharOf(v0), CharOf(v1), '=', '='];
    assert DecodeLastGroup(e) == Some([v0 * 4 + v1 / 16]);
  }

  /** Two final bytes come back from their "=" group. */
  lemma TwoBytesRoundTrip(a: byte, b: byte)
    ensures Decode(Encode([a, b])) == Some([a, b])
  {
    var v0, v1, v2 := a / 4, (a % 4) * 16 + b / 16, (b % 16) * 4;
    assert v1 / 16 == a % 4 && v1 % 16 == b / 16;
    assert v2 % 4 == 0 && v2 / 4 == b % 16;
    ValueOfCharOf(v0);
    ValueOfCharOf(v1);
    ValueOfCharOf(v2);
    var e := Encode([a, b]);
    assert e == EncodeTwo(a, b) == [CharOf(v0), CharOf(v1), CharOf(v2), '='];
    assert DecodeLastGroup(e) == Some([v0 * 4 + v1 / 16, (v1 % 16) * 16 + v2 / 4]);
  }

  /** A full group on its own decodes as the last group. */
  lemma ThreeBytesRoundTrip(a: byte, b: byte, c: byte)
    ensures Decode(EncodeGroup(a, b, c)) == Some([a, b, c])
  {
    var g := EncodeGroup(a, b, c);
    assert g[2] != '=' && g[3] != '=';
    assert Decode(g) == DecodeLastGroup(g) == DecodeGroup(g);
    GroupRoundTrip(a, b, c);
  }

  /** A full group followed by more groups decodes group by group. */
  lemma DecodeFirstGroup(g: seq<char>, rest: seq<char>)
    requires |g| == 4 && |rest| > 0
    requires DecodeGroup(g).Some? && Decode(rest).Some?
    ensures Decode(g + rest) == Some(DecodeGroup(g).value + Decode(rest).value)
  {
    var s := g + rest;
    assert s[..4] == g && s[4..] == rest;
  }

  lemma SplitFirstGroup(bs: seq<byte>)
    requires |bs| >= 3
    ensures [bs[0], bs[1], bs[2]] + bs[3..] == bs
  {
  }

  /** One step of `DecodeEncode`: a leading full group in front of an
      encoding that already round-trips. */
  lemma DecodeEncodeStep(bs: seq<byte>)
    requires |bs| > 3 && Decode(Encode(bs[3..])) == Some(bs[3..])
    ensures Decode(Encode(bs)) == Some(bs)
  {
    var g := EncodeGroup(bs[0], bs[1], bs[2]);
    assert Encode(bs) == g + Encode(bs[3..]);
    GroupRoundTrip(bs[0], bs[1], bs[2]);
    DecodeFirstGroup(g, Encode(bs[3..]));
    SplitFirstGroup(bs);
  }

  lemma ShortSequence(bs: seq<byte>)
    ensures |bs| == 1 ==> [bs[0]] == bs
    ensures |bs| == 2 ==> [bs[0], bs[1]] == bs
    ensures |bs| == 3 ==> [bs[0], bs[1], bs[2]] == bs
  {
  }

  /** The last group of `DecodeEncode`: one, two or three bytes. */
  lemma DecodeEncodeLast(bs: seq<byte>)
    requires 0 < |bs| <= 3
    ensures Decode(Encode(bs)) == Some(bs)
  {
    ShortSequence(bs);
    if |bs| == 1 {
      OneByteRoundTrip(bs[0]);
    } else if |bs| == 2 {
      TwoBytesRoundTrip(bs[0], bs[1]);
    } else {
      var g := EncodeGroup(bs[0], bs[1], bs[2]);
      assert Encode(bs) == g by {
        assert Encode(bs[3..]) == [];
        assert g + [] == g;
      }
      ThreeBytesRoundTrip(bs[0], bs[1], bs[2]);
    }
  }

  /** Decoding an encoding gives back the bytes, binary and empty input included. */
  lemma {:induction false} DecodeEncode(bs: seq<byte>)
    ensures Decode(Encode(bs)) == Some(bs)
    decreases |bs|
  {
    if |bs| > 3 {
      DecodeEncode(bs[3..]);
      DecodeEncodeStep(bs);
    } else if |bs| > 0 {
      DecodeEncodeLast(bs);
    }
  }

  /** The bytes of a decoded group, written back as 6-bit values. */
  lemma ValuesArithmetic(v0: int, v1: int, v2: int, v3: int)
    requires 0 <= v0 < 64 && 0 <= v1 < 64 && 0 <= v2 < 64 && 0 <= v3 < 64
    ensures var a, b, c := v0 * 4 + v1 / 16, (v1 % 16) * 16 + v2 / 4, (v2 % 4) * 64 + v3;
            && 0 <= a < 256 && 0 <= b < 256 && 0 <= c < 256
            && a / 4 == v0 && (a % 4) * 16 + b / 16 == v1
            && (b % 16) * 4 + c / 64 == v2 && c % 64 == v3
  {
  }

  lemma GroupFromValues(q: seq<char>)
    requires |q| == 4 && DecodeGroup(q).Some?
    ensures |DecodeGroup(q).value| == 3
    ensures EncodeGroup(DecodeGroup(q).value[0], DecodeGroup(q).value[1], DecodeGroup(q).value[2]) == q
  {
    var v0, v1, v2, v3 := ValueOf(q[0]), ValueOf(q[1]), ValueOf(q[2]), ValueOf(q[3]);
    ValuesArithmetic(v0, v1, v2, v3);
    var a, b, c := v0 * 4 + v1 / 16, (v1 % 16) * 16 + v2 / 4, (v2 % 4) * 64 + v3;
    assert DecodeGroup(q).value == [a, b, c];
    assert EncodeGroup(a, b, c) == [CharOf(v0), CharOf(v1), CharOf(v2), CharOf(v3)];
  }

  /** A last group ending in "==" re-encodes to itself. */
  lemma EncodeDecodeOne(s: seq<char>)
    requires |s| == 4 && s[2] == '=' && s[3] == '='
    requires IsAlphabetChar(s[0]) && IsAlphabetChar(s[1]) && ValueOf(s[1]) % 16 == 0
    ensures DecodeLastGroup(s).Some? && Encode(DecodeLastGroup(s).value) == s
  {
    var v0, v1 := ValueOf(s[0]), ValueOf(s[1]);
    var a := v0 * 4 + v1 / 16;
    assert DecodeLastGroup(s) == Some([a]);
    assert a / 4 == v0 && (a % 4) * 16 == v1;
    assert Encode([a]) == EncodeOne(a);
  }

  /** A last group ending in a single "=" re-encodes to itself. */
  lemma EncodeDecodeTwo(s: seq<char>)
    requires |s| == 4 && s[2] != '=' && s[3] == '='
    requires IsAlphabetChar(s[0]) && IsAlphabetChar(s[1]) && IsAlphabetChar(s[2]) && ValueOf(s[2]) % 4 == 0
    ensures DecodeLastGroup(s).Some? && Encode(DecodeLastGroup(s).value) == s
  {
    var v0, v1, v2 := ValueOf(s[0]), ValueOf(s[1]), ValueOf(s[2]);
    var a, b := v0 * 4 + v1 / 16, (v1 % 16) * 16 + v2 / 4;
    TwoValuesArithmetic(v0, v1, v2);
    assert DecodeLastGroup(s) == Some([a, b]);
    assert Encode([a, b]) == EncodeTwo(a, b);
  }

  lemma TwoValuesArithmetic(v0: int, v1: int, v2: int)
    requires 0 <= v0 < 64 && 0 <= v1 < 64 && 0 <= v2 < 64 && v2 % 4 == 0
    ensures var a, b := v0 * 4 + v1 / 16, (v1 % 16) * 16 + v2 / 4;
            && 0 <= a < 256 && 0 <= b < 256
            && a / 4 == v0 && (a % 4) * 16 + b / 16 == v1 && (b % 16) * 4 == v2
  {
  }

  /** A last group without padding re-encodes to itself. */
  lemma EncodeDecodeThree(s: seq<char>)
    requires |s| == 4 && s[3] != '=' && DecodeGroup(s).Some?
    ensures Encode(DecodeGroup(s).value) == s
  {
    GroupFromValues(s);
    var g := DecodeGroup(s).value;
    assert g[3..] == [];
    assert Encode(g) == EncodeGroup(g[0], g[1], g[2]) + Encode([]);
  }

  /** The last group case of `EncodeDecode`. */
  lemma EncodeDecodeLastGroup(s: seq<char>)
    requires |s| == 4 && Decode(s).Some?
    ensures Encode(Decode(s).value) == s
  {
    assert Decode(s) == DecodeLastGroup(s);
    if s[2] == '=' && s[3] == '=' {
      EncodeDecodeOne(s);
    } else if s[3] == '=' {
      EncodeDecodeTwo(s);
    } else {
      EncodeDecodeThree(s);
    }
  }

  /** Every string the strict decoder accepts is the encoding of what it decodes to. */
  lemma {:induction false} EncodeDecode(s: seq<char>)
    requires Decode(s).Some?
    ensures Encode(Decode(s).value) == s
    decreases |s|
  {
    if |s| == 4 {
      EncodeDecodeLastGroup(s);
    } else if |s| > 4 {
      GroupFromValues(s[..4]);
      var g := DecodeGroup(s[..4]).value;
      var rest := Decode(s[4..]).value;
      EncodeDecode(s[4..]);
      var bs := g + rest;
      assert Decode(s) == Some(bs);
      assert bs[3..] == rest;
      assert Encode(bs) == EncodeGroup(g[0], g[1], g[2]) + Encode(rest);
      assert s == s[..4] + s[4..];
    }
  }
}

=== FILE: data_uri.dfy ===
/** `DataUri`: file content wrapped as a data URI in the base64 form of
    section 3 of RFC 2397, `data:<mime>;base64,<payload>`, which is what the
    adapter hands to the upload call. The MIME type is sniffed from the
    content by a library outside this model, so the sniffer is a parameter. */
module DataUri {
  import opened Results
  import opened PhpStrings
  import Base64

  /** The content sniffer (`finfo::buffer` in MIME-type mode). */
  type Sniffer = seq<Base64.byte> -> string

  /** The constructor keeps the content as it is. */
  datatype DataUri = DataUri(content: seq<Base64.byte>)

  const Scheme: string := "data:"
  const Marker: string := ";base64,"

  /** `data:<mime>;base64,<payload>` for a given MIME type and content. */
  function Assemble(mime: string, content: seq<Base64.byte>): string {
    Scheme + mime + Marker + Base64.Encode(content)
  }

  /** `__toString`: the sniffed MIME type of the content and its base64 encoding.
      The scheme opens the string and the encoded content closes it; the
      payload is 4 characters per started group of 3 bytes. */
  function ToString(d: DataUri, sniff: Sniffer): (r: string)
    ensures StartsWith(r, Scheme)
    ensures |r| == |Scheme| + |sniff(d.content)| + |Marker| + 4 * ((|d.content| + 2) / 3)
    ensures r[|r| - |Base64.Encode(d.content)|..] == Base64.Encode(d.content)
  {
    Assemble(sniff(d.content), d.content)
  }

  /** Reads a data URI in base64 form back into MIME type and content. The
      payload starts after the last comma; `None` for anything that is not a
      data URI with a strict base64 payload. */
  function Parse(s: string): Option<(string, seq<Base64.byte>)> {
    if !StartsWith(s, Scheme) then None
    else match LastIndexOf(s, ',')
      case None => None
      case Some(k) =>
        if k < |Scheme| + |Marker| - 1 || s[k + 1 - |Marker|..k + 1] != Marker then None
        else match Base64.Decode(s[k + 1..])
          case None => None
          case Some(content) => Some((s[|Scheme|..k + 1 - |Marker|], content))
  }

  /** The base64 payload never holds a comma, so the separator before it is
      the last comma of the URI whatever the MIME type holds. */
  lemma NoCommaInPayload(content: seq<Base64.byte>)
    ensures ',' !in Base64.Encode(content)
  {
    Base64.EncodeShape(content);
  }

  /** Reading an assembled data URI gives back its MIME type and content,
      binary bytes included. */
  lemma ParseAssemble(mime: string, content: seq<Base64.byte>)
    ensures Parse(Assemble(mime, content)) == Some((mime, content))
  {
    var e := Base64.Encode(content);
    var s := Assemble(mime, content);
    var k := |Scheme| + |mime| + |Marker| - 1;
    assert LastIndexOf(s, ',') == Some(k) by {
      var a := Scheme + mime + ";base64";
      assert s == a + [','] + e;
      NoCommaInPayload(content);
      LastIndexOfSplit(a, ',', e);
    }
    assert StartsWith(s, Scheme) by {
      assert s[..|Scheme|] == Scheme;
    }
    assert s[k + 1 - |Marker|..k + 1] == Marker;
    assert s[k + 1..] == e;
    assert s[|Scheme|..k + 1 - |Marker|] == mime;
    Base64.DecodeEncode(content);
  }

  /** Everything `Parse` accepts is the assembly of what it reads. */
  lemma AssembleParse(s: string)
    requires Parse(s).Some?
    ensures Assemble(Parse(s).value.0, Parse(s).value.1) == s
  {
    var k := LastIndexOf(s, ',').value;
    var j := k + 1 - |Marker|;
    var mime, content := Parse(s).value.0, Parse(s).value.1;
    assert |Scheme| <= j && s[..|Scheme|] == Scheme && s[j..k + 1] == Marker
           && mime == s[|Scheme|..j] && Base64.Decode(s[k + 1..]) == Some(content);
    Base64.EncodeDecode(s[k + 1..]);
    SplitInFour(s, |Scheme|, j, k + 1);
  }

  lemma SplitInFour(s: string, i: nat, j: nat, k: nat)
    requires i <= j <= k <= |s|
    ensures s == s[..i] + s[i..j] + s[j..k] + s[k..]
  {
  }

  /** The payload of `__toString` decodes to exactly the constructor's content. */
  lemma ToStringRoundTrip(d: DataUri, sniff: Sniffer)
    ensures Parse(ToString(d, sniff)) == Some((sniff(d.content), d.content))
  {
    ParseAssemble(sniff(d.content), d.content);
  }

  /** Empty content gives an empty payload. */
  lemma EmptyContent(sniff: Sniffer)
    ensures ToString(DataUri([]), sniff) == Scheme + sniff([]) + Marker
  {
    assert Base64.Encode([]) == [];
  }

  /** Two data URIs print the same exactly when they hold the same content:
      the output depends on the content only, and determines it. */
  lemma ToStringDeterminesContent(d1: DataUri, d2: DataUri, sniff: Sniffer)
    ensures ToString(d1, sniff) == ToString(d2, sniff) <==> d1 == d2
  {
    ToStringRoundTrip(d1, sniff);
    ToStringRoundTrip(d2, sniff);
  }
}

=== FILE: escaper.dfy ===
/** `sanitizePath`: the escaper that turns a public id into a literal for a
    `public_id:<id>` search expression. It is one regex replacement that puts a
    backslash before each match of
      ! ( ) { } [ ] * ^ ~ ? : |= & > < \s
    Matches are found left to right without overlap. The alternative `\|=` is
    the two-character sequence "|=", so a lone '|' or '=' is left alone. The
    backslash itself is not in the set. */
module Escaper {

  /** PCRE's `\s` without the `u` flag: space, tab, line feed, vertical tab,
      form feed and carriage return. */
  predicate IsSpace(c: char) {
    c == ' ' || c == '\t' || c == '\n' || c == '\r' || c as int == 11 || c as int == 12
  }

  /** The characters the regex matches on their own. */
  predicate IsSpecial(c: char) {
    c in "!(){}[]*^~?:&><" || IsSpace(c)
  }

  /** The input starts with the two-character match "|=". */
  predicate StartsWithPipeEquals(s: string) {
    |s| >= 2 && s[0] == '|' && s[1] == '='
  }

  /** The number of regex matches in `s`, scanning left to right. */
  function MatchCount(s: string): nat
    decreases |s|
  {
    if |s| == 0 then 0
    else if StartsWithPipeEquals(s) then 1 + MatchCount(s[2..])
    else if IsSpecial(s[0]) then 1 + MatchCount(s[1..])
    else MatchCount(s[1..])
  }

  /** `sanitizePath`: every match gains exactly one backslash in front, and
      nothing else changes length. */
  function Sanitize(s: string): (r: string)
    ensures |r| == |s| + MatchCount(s)
    decreases |s|
  {
    if |s| == 0 then ""
    else if StartsWithPipeEquals(s) then "\\|=" + Sanitize(s[2..])
    else if IsSpecial(s[0]) then ['\\', s[0]] + Sanitize(s[1..])
    else [s[0]] + Sanitize(s[1..])
  }

  /** Deletes the backslashes `Sanitize` inserted: a backslash is dropped when
      it is followed by a special character or by "|=". */
  function Unsanitize(t: string): string
    decreases |t|
  {
    if |t| == 0 then ""
    else if |t| >= 3 && t[0] == '\\' && StartsWithPipeEquals(t[1..]) then "|=" + Unsanitize(t[3..])
    else if |t| >= 2 && t[0] == '\\' && IsSpecial(t[1]) then [t[1]] + Unsanitize(t[2..])
    else [t[0]] + Unsanitize(t[1..])
  }

  /** A string without a match is not changed. */
  predicate HasNoMatch(s: string) {
    forall i :: 0 <= i < |s| ==> !IsSpecial(s[i]) && !StartsWithPipeEquals(s[i..])
  }

  /** Characters outside the special set pass through: a string with no match
      is its own escape. */
  lemma {:induction false} NoMatchUnchanged(s: string)
    requires HasNoMatch(s)
    ensures Sanitize(s) == s
    decreases |s|
  {
    if |s| > 0 {
      assert !IsSpecial(s[0]) && !StartsWithPipeEquals(s[0..]);
      assert s[0..] == s;
      assert HasNoMatch(s[1..]) by {
        forall i | 0 <= i < |s[1..]|
          ensures !IsSpecial(s[1..][i]) && !StartsWithPipeEquals(s[1..][i..])
        {
          assert s[1..][i..] == s[i + 1..];
        }
      }
      NoMatchUnchanged(s[1..]);
    }
  }

  /** What an escaped string starts with: an inserted backslash, or the
      input's first character when that is not a match; and it never starts
      with an unescaped "|=". */
  lemma {:induction false} SanitizeHead(s: string)
    requires |s| > 0
    ensures |Sanitize(s)| > 0
    ensures Sanitize(s)[0] == '\\'
            || (Sanitize(s)[0] == s[0] && !IsSpecial(s[0]) && !StartsWithPipeEquals(s))
    ensures !StartsWithPipeEquals(Sanitize(s))
    decreases |s|
  {
    if !StartsWithPipeEquals(s) && !IsSpecial(s[0]) && |s| >= 2 {
      SanitizeHead(s[1..]);
      assert Sanitize(s)[1] == Sanitize(s[1..])[0];
    }
  }

  /** Deleting the inserted backslashes recovers the input. */
  lemma {:induction false} UnsanitizeSanitize(s: string)
    ensures Unsanitize(Sanitize(s)) == s
    decreases |s|
  {
    if |s| == 0 {
    } else if StartsWithPipeEquals(s) {
      var rest := Sanitize(s[2..]);
      assert Sanitize(s) == "\\|=" + rest;
      assert ("\\|=" + rest)[1..] == "|=" + rest;
      assert ("\\|=" + rest)[3..] == rest;
      UnsanitizeSanitize(s[2..]);
      assert s == "|=" + s[2..];
    } else if IsSpecial(s[0]) {
      var rest := Sanitize(s[1..]);
      var t := ['\\', s[0]] + rest;
      assert Sanitize(s) == t;
      assert t[2..] == rest;
      assert !StartsWithPipeEquals(t[1..]);
      UnsanitizeSanitize(s[1..]);
      assert s == [s[0]] + s[1..];
    } else {
      var rest := Sanitize(s[1..]);
      var t := [s[0]] + rest;
      assert Sanitize(s) == t;
      assert t[1..] == rest;
      if |s| >= 2 {
        SanitizeHead(s[1..]);
        assert t[1..] == rest;
      }
      UnsanitizeSanitize(s[1..]);
      assert s == [s[0]] + s[1..];
    }
  }

  /** Two different paths never escape to the same query literal. */
  lemma SanitizeInjective(a: string, b: string)
    requires Sanitize(a) == Sanitize(b)
    ensures a == b
  {
    UnsanitizeSanitize(a);
    UnsanitizeSanitize(b);
  }

  /** `|` and `=` are escaped only together, as "|=", while a space is escaped
      on its own. */
  lemma PipeAndEqualsOnlyAsPair()
    ensures Sanitize("|") == "|"
    ensures Sanitize("=") == "="
    ensures Sanitize("|=") == "\\|="
    ensures Sanitize(" ") == "\\ "
  {
    assert Sanitize("|") == "|" by {
      assert !StartsWithPipeEquals("|");
      assert "|"[1..] == "";
    }
    assert Sanitize("=") == "=" by {
      assert "="[1..] == "";
    }
    assert Sanitize("|=") == "\\|=" by {
      assert "|="[2..] == "";
    }
    assert " "[1..] == "";
  }

  /** A backslash in a path is not escaped, so `a\b` reaches the query as it
      is. The assumed reader `Unsanitize` keeps a backslash that is not followed
      by a special character; a reader that dropped every backslash would read
      `ab` instead, so exact lookup rests on that reading. */
  lemma BackslashNotEscaped()
    ensures Sanitize("a\\b") == "a\\b"
    ensures Unsanitize("a\\b") == "a\\b"
  {
    assert "a\\b"[1..] == "\\b" && "\\b"[1..] == "b" && "b"[1..] == "";
  }

  /** The escape of the first character of a string that does not start with
      "|=". */
  function HeadEscape(c: char): string {
    if IsSpecial(c) then ['\\', c] else [c]
  }

  /** One step of the escape, for a string that does not start with "|=". */
  lemma SanitizeStep(x: string)
    requires |x| > 0 && !StartsWithPipeEquals(x)
    ensures Sanitize(x) == HeadEscape(x[0]) + Sanitize(x[1..])
  {
  }

  /** A backslash anywhere in a path is kept as it is and ends every match:
      the two sides around it are escaped separately. */
  lemma {:induction false} BackslashSplits(a: string, b: string)
    ensures Sanitize(a + "\\" + b) == Sanitize(a) + "\\" + Sanitize(b)
    decreases |a|
  {
    var s := a + "\\" + b;
    if |a| == 0 {
      assert s == "\\" + b;
      assert s[1..] == b;
    } else if StartsWithPipeEquals(a) {
      assert StartsWithPipeEquals(s);
      assert s[2..] == a[2..] + "\\" + b;
      BackslashSplits(a[2..], b);
      assert Sanitize(s) == "\\|=" + Sanitize(a[2..] + "\\" + b);
    } else {
      var t := a[1..] + "\\" + b;
      assert s[0] == a[0] && s[1..] == t;
      assert !StartsWithPipeEquals(s) by {
        if |a| == 1 { assert s[1] == '\\'; } else { assert s[1] == a[1]; }
      }
      SanitizeStep(a);
      SanitizeStep(s);
      BackslashSplits(a[1..], b);
      assert Sanitize(t) == Sanitize(a[1..]) + "\\" + Sanitize(b);
    }
  }
}

=== FILE: listing.dfy ===
/** `listContents` and the pagination loop `doListContents` behind it.
    The search service's answers are a finite list of pages, each with its
    resources and the cursor of the page after it; the service is assumed to
    end, so some page has no cursor. Request k+1 carries the cursor of page k,
    and the loop stops at the first page without one. */
module Listing {
  import opened Results
  import opened PhpStrings
  import opened RemoteStore
  import opened Adapter

  /** One element of an answer's `resources`: an asset record, or a value
      that is not an array. */
  datatype SearchItem = Item(resource: Resource) | NotAnArray

  /** What `normalizeMetadata` returns: `false`, or a file record. */
  datatype Normalized = NotArray | FileRecord(kind: string, meta: Metadata)

  /** `normalizeMetadata`: a non-array becomes `false`; a resource becomes a
      file record carrying the same metadata `getMetadata` reports. */
  function Normalize(item: SearchItem, strtotime: string -> Option<int>): (n: Normalized)
    ensures n.NotArray? <==> item.NotAnArray?
    ensures item.Item? ==> n.kind == "file" && n.meta == MetadataOf(item.resource, strtotime)
  {
    match item
    case NotAnArray => NotArray
    case Item(res) => FileRecord("file", MetadataOf(res, strtotime))
  }

  /** The record of a resource: type "file", its public id as path, `None`
      (false) for a missing size and version 1 for a missing version. */
  lemma NormalizeRecord(res: Resource, strtotime: string -> Option<int>)
    ensures var n := Normalize(Item(res), strtotime);
            && n == FileRecord("file", n.meta)
            && n.meta.path == res.publicId
            && (n.meta.size.None? <==> res.asset.bytes.None?)
            && (res.asset.createdAt.None? ==> n.meta.timestamp.None?)
            && (res.asset.createdAt.Some? ==> n.meta.timestamp == strtotime(res.asset.createdAt.value))
            && n.meta.version == res.asset.version.GetOr(1)
  {
  }

  /** A listed file carries the same metadata `getMetadata` returns for it. */
  lemma NormalizeAgreesWithGetMetadata(cfg: Config, host: Host, r: Remote, path: string)
    requires Prefix(cfg) + path in r.assets
    ensures var id := Prefix(cfg) + path;
            var m := GetMetadata(cfg, host, r, map[], path);
            m.result.Ok?
            && Normalize(Item(Resource(id, r.assets[id])), host.strtotime) == FileRecord("file", m.result.value.extra)
  {
  }

  /** Normalizes the resources of one page, in order. */
  function NormalizeAll(items: seq<SearchItem>, strtotime: string -> Option<int>): (ns: seq<Normalized>)
    ensures |ns| == |items|
    ensures forall i :: 0 <= i < |items| ==> ns[i] == Normalize(items[i], strtotime)
  {
    seq(|items|, i requires 0 <= i < |items| => Normalize(items[i], strtotime))
  }

  /** One answer of the search service. */
  datatype Page = Page(items: seq<SearchItem>, nextCursor: Option<string>)

  /** The page size `doListContents` asks for. */
  const PageSize: nat := 500

  /** The search expression for a directory: none when PHP's `empty()` holds
      for it ("" and also "0"), the folder itself when shallow and everything
      below it when deep. */
  function ListExpression(directory: string, deep: bool): (e: Option<string>)
    ensures e.None? <==> Empty(directory)
    ensures e.Some? ==> StartsWith(e.value, "folder:" + directory)
    ensures e.Some? ==> e.value[|"folder:" + directory|..] == (if deep then "/*" else "")
  {
    if Empty(directory) then None
    else if !deep then Some("folder:" + directory)
    else Some("folder:" + directory + "/*")
  }

  /** The directory "0" is listed as if no directory was given: the whole
      store is searched. */
  lemma ZeroDirectoryListsEverything(deep: bool)
    ensures ListExpression("0", deep) == ListExpression("", deep) == None
  {
  }

  /** The service ends: the last page it serves has no cursor. */
  predicate EndsWithoutCursor(pages: seq<Page>) {
    pages != [] && pages[|pages| - 1].nextCursor.None?
  }

  /** The first page from `k` on without a cursor, where the loop stops. */
  function StopPage(pages: seq<Page>, k: nat): (j: nat)
    requires EndsWithoutCursor(pages) && k < |pages|
    ensures k <= j < |pages| && pages[j].nextCursor.None?
    ensures forall i :: k <= i < j ==> pages[i].nextCursor.Some?
    decreases |pages| - k
  {
    if pages[k].nextCursor.None? then k else StopPage(pages, k + 1)
  }

  /** The cursor request `k` carries: none for the first, the previous
      page's `next_cursor` after that. */
  function CursorFor(pages: seq<Page>, k: nat): Option<string>
    requires k <= |pages|
  {
    if k == 0 then None else pages[k - 1].nextCursor
  }

  /** Request `k` of a listing with expression `expr`. */
  function Request(expr: Option<string>, pages: seq<Page>, k: nat): Call
    requires k <= |pages|
  {
    Search(expr, Some(PageSize), CursorFor(pages, k))
  }

  /** The normalized resources of pages `k` to `last`, in page order. */
  function FilesFrom(pages: seq<Page>, k: nat, last: nat, strtotime: string -> Option<int>): seq<Normalized>
    requires last < |pages|
    decreases last + 1 - k
  {
    if k > last then [] else NormalizeAll(pages[k].items, strtotime) + FilesFrom(pages, k + 1, last, strtotime)
  }

  /** The loop from request `k` on: it asks for page `k` with the cursor of
      page `k - 1`, collects its resources and goes on while the page has a
      cursor. Request `k` is the listing's request at position `k`; a failing
      request escapes. */
  function Drain(expr: Option<string>, pages: seq<Page>, faults: Faults,
                 strtotime: string -> Option<int>, k: nat): (out: (Result<seq<Normalized>, Failure>, seq<Call>))
    requires EndsWithoutCursor(pages) && k < |pages|
    ensures 1 <= |out.1| <= |pages| - k
    ensures out.1[0] == Request(expr, pages, k)
    decreases |pages| - k
  {
    var call := Request(expr, pages, k);
    if k in faults then (Err(Uncaught(faults[k])), [call])
    else
      var files := NormalizeAll(pages[k].items, strtotime);
      if pages[k].nextCursor.None? then (Ok(files), [call])
      else
        var rest := Drain(expr, pages, faults, strtotime, k + 1);
        match rest.0
        case Ok(more) => (Ok(files + more), [call] + rest.1)
        case Err(e) => (Err(e), [call] + rest.1)
  }

  /** The requests of the loop from `k` on: request `k + i` carries the
      cursor of page `k + i - 1`. */
  lemma {:induction false} DrainRequests(expr: Option<string>, pages: seq<Page>, faults: Faults,
                                         strtotime: string -> Option<int>, k: nat)
    requires EndsWithoutCursor(pages) && k < |pages|
    ensures forall i :: 0 <= i < |Drain(expr, pages, faults, strtotime, k).1| ==>
              Drain(expr, pages, faults, strtotime, k).1[i] == Request(expr, pages, k + i)
    decreases |pages| - k
  {
    var call := Request(expr, pages, k);
    if k !in faults && pages[k].nextCursor.Some? {
      DrainRequests(expr, pages, faults, strtotime, k + 1);
      var rest := Drain(expr, pages, faults, strtotime, k + 1).1;
      var calls := Drain(expr, pages, faults, strtotime, k).1;
      assert calls == [call] + rest;
      forall i | 0 < i < |calls|
        ensures calls[i] == Request(expr, pages, k + i)
      {
        assert calls[i] == rest[i - 1];
      }
    }
  }

  /** Every request of the loop but the last succeeded. */
  lemma {:induction false} DrainStopsAtFault(expr: Option<string>, pages: seq<Page>, faults: Faults,
                                             strtotime: string -> Option<int>, k: nat)
    requires EndsWithoutCursor(pages) && k < |pages|
    ensures forall p :: k <= p < k + |Drain(expr, pages, faults, strtotime, k).1| - 1 ==> p !in faults
    decreases |pages| - k
  {
    if k !in faults && pages[k].nextCursor.Some? {
      DrainStopsAtFault(expr, pages, faults, strtotime, k + 1);
      var rest := Drain(expr, pages, faults, strtotime, k + 1).1;
      var calls := Drain(expr, pages, faults, strtotime, k).1;
      assert |calls| == 1 + |rest|;
    }
  }

  /** A successful loop from `k` on has read every page up to the first one
      without a cursor and returns their resources in page order. */
  lemma {:induction false} DrainFiles(expr: Option<string>, pages: seq<Page>, faults: Faults,
                                      strtotime: string -> Option<int>, k: nat)
    requires EndsWithoutCursor(pages) && k < |pages|
    requires Drain(expr, pages, faults, strtotime, k).0.Ok?
    ensures var out := Drain(expr, pages, faults, strtotime, k);
            && |out.1| == StopPage(pages, k) + 1 - k
            && StopPage(pages, k) !in faults
            && out.0.value == FilesFrom(pages, k, StopPage(pages, k), strtotime)
    decreases |pages| - k
  {
    var call := Request(expr, pages, k);
    if pages[k].nextCursor.Some? {
      var rest := Drain(expr, pages, faults, strtotime, k + 1);
      var out := Drain(expr, pages, faults, strtotime, k);
      assert k !in faults;
      assert rest.0.Ok?;
      DrainFiles(expr, pages, faults, strtotime, k + 1);
      assert StopPage(pages, k) == StopPage(pages, k + 1);
      assert out.1 == [call] + rest.1;
    }
  }

  /** A failing loop failed at its last request, with that request's error. */
  lemma {:induction false} DrainError(expr: Option<string>, pages: seq<Page>, faults: Faults,
                                      strtotime: string -> Option<int>, k: nat)
    requires EndsWithoutCursor(pages) && k < |pages|
    requires Drain(expr, pages, faults, strtotime, k).0.Err?
    ensures var out := Drain(expr, pages, faults, strtotime, k);
            k + |out.1| - 1 in faults && out.0.error == Uncaught(faults[k + |out.1| - 1])
    decreases |pages| - k
  {
    var call := Request(expr, pages, k);
    if k !in faults {
      var rest := Drain(expr, pages, faults, strtotime, k + 1);
      var out := Drain(expr, pages, faults, strtotime, k);
      DrainError(expr, pages, faults, strtotime, k + 1);
      assert out.1 == [call] + rest.1;
    }
  }

  /** `doListContents` for a directory (already prefixed). */
  function DoListContents(directory: string, deep: bool, pages: seq<Page>, faults: Faults,
                          strtotime: string -> Option<int>): (out: (Result<seq<Normalized>, Failure>, seq<Call>))
    requires EndsWithoutCursor(pages)
    ensures forall i :: 0 <= i < |out.1| ==> out.1[i].Search? && out.1[i].expression == ListExpression(directory, deep)
                                              && out.1[i].maxResults == Some(PageSize)
  {
    DrainRequests(ListExpression(directory, deep), pages, faults, strtotime, 0);
    Drain(ListExpression(directory, deep), pages, faults, strtotime, 0)
  }

  /** Without failures the loop makes one request per page up to the first
      page without a cursor, each carrying the cursor of the page before, and
      returns every resource of those pages in page order. */
  lemma DoListContentsDrains(directory: string, deep: bool, pages: seq<Page>, strtotime: string -> Option<int>)
    requires EndsWithoutCursor(pages)
    ensures var out := DoListContents(directory, deep, pages, map[], strtotime);
            && out.0 == Ok(FilesFrom(pages, 0, StopPage(pages, 0), strtotime))
            && |out.1| == StopPage(pages, 0) + 1
            && out.1[0].cursor.None?
            && (forall k :: 0 < k < |out.1| ==> out.1[k].cursor == pages[k - 1].nextCursor)
  {
    var out := DoListContents(directory, deep, pages, map[], strtotime);
    DrainRequests(ListExpression(directory, deep), pages, map[], strtotime, 0);
    if out.0.Err? {
      DrainError(ListExpression(directory, deep), pages, map[], strtotime, 0);
    }
    DrainFiles(ListExpression(directory, deep), pages, map[], strtotime, 0);
  }

  /** With failures, the loop stops at the first request that throws and
      lets its error escape; every request before it succeeded. */
  lemma DoListContentsStopsAtFault(directory: string, deep: bool, pages: seq<Page>, faults: Faults,
                                   strtotime: string -> Option<int>)
    requires EndsWithoutCursor(pages)
    ensures var out := DoListContents(directory, deep, pages, faults, strtotime);
            && (forall p :: 0 <= p < |out.1| - 1 ==> p !in faults)
            && (out.0.Err? <==> |out.1| - 1 in faults)
            && (out.0.Err? ==> out.0.error == Uncaught(faults[|out.1| - 1]))
            && (out.0.Ok? ==> out.0.value == FilesFrom(pages, 0, StopPage(pages, 0), strtotime))
  {
    var out := DoListContents(directory, deep, pages, faults, strtotime);
    DrainStopsAtFault(ListExpression(directory, deep), pages, faults, strtotime, 0);
    if out.0.Ok? {
      DrainFiles(ListExpression(directory, deep), pages, faults, strtotime, 0);
    } else {
      DrainError(ListExpression(directory, deep), pages, faults, strtotime, 0);
    }
  }

  /** A page with no resources adds nothing, and every other page adds its
      resources: the count is the sum over the pages read. */
  lemma {:induction false} FilesFromLength(pages: seq<Page>, k: nat, last: nat, strtotime: string -> Option<int>)
    requires last < |pages|
    ensures |FilesFrom(pages, k, last, strtotime)| == ItemsFrom(pages, k, last)
    decreases last + 1 - k
  {
    if k <= last {
      FilesFromLength(pages, k + 1, last, strtotime);
    }
  }

  /** The number of resources on pages `k` to `last`. */
  function ItemsFrom(pages: seq<Page>, k: nat, last: nat): nat
    requires last < |pages|
    decreases last + 1 - k
  {
    if k > last then 0 else |pages[k].items| + ItemsFrom(pages, k + 1, last)
  }

  /** What `listContents` yields. */
  datatype Entry = FileEntry(record: Normalized) | DirectoryEntry(path: string)

  /** The entries yielded before the generator ended, the exception that
      ended it (if any) and the requests made. */
  datatype Listing = Listing(yielded: seq<Entry>, failure: Option<Failure>, calls: seq<Call>)

  /** Files come before directories. */
  predicate FilesFirst(es: seq<Entry>) {
    forall i, j :: 0 <= i < j < |es| && es[i].DirectoryEntry? ==> es[j].DirectoryEntry?
  }

  function FileEntries(records: seq<Normalized>): (es: seq<Entry>)
    ensures |es| == |records| && forall i :: 0 <= i < |es| ==> es[i] == FileEntry(records[i])
  {
    seq(|records|, i requires 0 <= i < |records| => FileEntry(records[i]))
  }

  function DirectoryEntries(paths: seq<string>): (es: seq<Entry>)
    ensures |es| == |paths| && forall i :: 0 <= i < |es| ==> es[i] == DirectoryEntry(paths[i])
  {
    seq(|paths|, i requires 0 <= i < |paths| => DirectoryEntry(paths[i]))
  }

  /** `listContents`: every file record of the prefixed directory, then its
      direct subfolders. A failing search ends the listing before anything is
      yielded; a failing subfolder request, the one after the searches, ends
      it after the files. */
  function ListContents(cfg: Config, r: Remote, faults: Faults, pages: seq<Page>,
                        strtotime: string -> Option<int>, path: string, deep: bool): (l: Listing)
    requires EndsWithoutCursor(pages)
    ensures FilesFirst(l.yielded)
    ensures l.failure.None? ==>
              var files := DoListContents(Prefix(cfg) + path, deep, pages, faults, strtotime);
              var dirs := SubFolderPaths(r, Prefix(cfg) + path);
              && files.0.Ok?
              && l.yielded == FileEntries(files.0.value) + DirectoryEntries(dirs)
              && l.calls == files.1 + [SubFolders(Prefix(cfg) + path)]
    ensures l.failure.Some? && l.yielded != [] ==>
              |l.calls| > 0 && l.calls[|l.calls| - 1] == SubFolders(Prefix(cfg) + path) && |l.calls| - 1 in faults
  {
    var id := Prefix(cfg) + path;
    var files := DoListContents(id, deep, pages, faults, strtotime);
    match files.0
    case Err(e) => Listing([], Some(e), files.1)
    case Ok(records) =>
      var c := SubFolders(id);
      if |files.1| in faults then Listing(FileEntries(records), Some(Uncaught(faults[|files.1|])), files.1 + [c])
      else Listing(FileEntries(records) + DirectoryEntries(SubFolderPaths(r, id)), None, files.1 + [c])
  }
}

=== FILE: path_converter.dfy ===
/** The mapping from a filesystem path to the remote store's public id.
    Media files (video, image, audio) are stored without their extension,
    because the remote store derives its own; everything else keeps its path.
    The extension-to-MIME table is a parameter. */
module PathConverter {
  import opened Results
  import opened PhpStrings

  /** The extension-to-MIME-type table: `None` for an extension it does not know. */
  type MimeLookup = string -> Option<string>

  /** Whether `case str_starts_with($mimeType, family):` matches. The switch
      compares its subject with each case's boolean by PHP's loose `==`, so the
      MIME type is read as a bool; a `null` subject is read as "" by
      `str_starts_with`. */
  predicate CaseMatches(mime: Option<string>, family: string) {
    Truthy(mime) == NullableStartsWith(mime, family)
  }

  /** Whether one of the three cases (which share one `return`) matches. */
  predicate SwitchTakesStripBranch(mime: Option<string>) {
    CaseMatches(mime, "video") || CaseMatches(mime, "image") || CaseMatches(mime, "audio")
  }

  /** A MIME type whose top-level category is video, image or audio. */
  predicate IsMediaType(m: string) {
    StartsWith(m, "video") || StartsWith(m, "image") || StartsWith(m, "audio")
  }

  /** When the extension is stripped, stated without the switch: for a media
      type, and also whenever PHP reads the looked-up value as false (no MIME
      type at all, "" or "0"), since then `false == false` matches the first case. */
  predicate StripsExtension(mime: Option<string>) {
    !Truthy(mime) || IsMediaType(mime.value)
  }

  function ConvertPathToPublicId(path: string, lookup: MimeLookup): (r: string)
    ensures |r| <= |path|
    ensures r == path || StartsWith(Basename(path), r)
  {
    var mime := lookup(PathinfoExtension(path));
    if SwitchTakesStripBranch(mime) then
      FilenameIsPrefixOfBasename(path);
      PathinfoFilename(path)
    else path
  }

  lemma FilenameIsPrefixOfBasename(path: string)
    ensures StartsWith(Basename(path), PathinfoFilename(path))
  {
    var b := Basename(path);
    match LastIndexOf(b, '.')
    case None =>
    case Some(i) =>
  }

  /** The loose switch takes the strip branch exactly when `StripsExtension` holds. */
  lemma SwitchDecision(mime: Option<string>)
    ensures SwitchTakesStripBranch(mime) <==> StripsExtension(mime)
  {
    if !Truthy(mime) {
      var m := mime.GetOr("");
      assert !StartsWith(m, "video") && !StartsWith(m, "image") && !StartsWith(m, "audio") by {
        assert m == "" || m == "0";
        if m == "0" {
          assert m[..1] == "0";
        }
      }
    }
  }

  /** Both branches of the converter, in terms of the MIME type of the path's extension. */
  lemma ConvertDecision(path: string, lookup: MimeLookup)
    ensures StripsExtension(lookup(PathinfoExtension(path))) ==>
              ConvertPathToPublicId(path, lookup) == PathinfoFilename(path)
    ensures !StripsExtension(lookup(PathinfoExtension(path))) ==>
              ConvertPathToPublicId(path, lookup) == path
  {
    SwitchDecision(lookup(PathinfoExtension(path)));
  }

  /** A media extension is stripped: the result is the basename without its
      last extension. */
  lemma MediaLosesExtension(path: string, lookup: MimeLookup)
    requires lookup(PathinfoExtension(path)).Some?
    requires IsMediaType(lookup(PathinfoExtension(path)).value)
    ensures ConvertPathToPublicId(path, lookup) == PathinfoFilename(path)
    ensures '.' in Basename(path) ==>
              ConvertPathToPublicId(path, lookup) + "." + PathinfoExtension(path) == Basename(path)
  {
    ConvertDecision(path, lookup);
    FilenameAndExtension(path);
  }

  /** An extension the table does not know (or a path without one) is also
      stripped, not passed through: `null == false` matches the first case. */
  lemma UnknownExtensionIsStripped(path: string, lookup: MimeLookup)
    requires lookup(PathinfoExtension(path)).None?
    ensures ConvertPathToPublicId(path, lookup) == PathinfoFilename(path)
  {
    ConvertDecision(path, lookup);
  }

  /** A known MIME type outside the three media families leaves the path as it is. */
  lemma OtherTypeKeepsPath(path: string, lookup: MimeLookup)
    requires Truthy(lookup(PathinfoExtension(path)))
    requires !IsMediaType(lookup(PathinfoExtension(path)).value)
    ensures ConvertPathToPublicId(path, lookup) == path
  {
    ConvertDecision(path, lookup);
  }

  /** The strip branch keeps only the last component: `dir/name.ext` becomes
      `name`, losing `dir`. */
  lemma StripDropsDirectory(dir: string, name: string, ext: string, lookup: MimeLookup)
    requires '/' !in name && '/' !in ext && '.' !in ext
    requires StripsExtension(lookup(ext))
    ensures ConvertPathToPublicId(dir + "/" + name + "." + ext, lookup) == name
  {
    var base := name + "." + ext;
    var path := dir + "/" + base;
    assert dir + "/" + name + "." + ext == path;
    assert '/' !in base;
    BasenameOfChild(dir, base);
    LastIndexOfSplit(name, '.', ext);
    assert base[|name| + 1..] == ext;
    assert base[..|name|] == name;
    ConvertDecision(path, lookup);
  }

  /** Only the final extension goes: `stem.ext` with a media `ext` becomes `stem`,
      even when `stem` has dots of its own. */
  lemma OnlyLastExtensionStripped(stem: string, ext: string, lookup: MimeLookup)
    requires '/' !in stem && '/' !in ext && '.' !in ext
    requires StripsExtension(lookup(ext))
    ensures ConvertPathToPublicId(stem + "." + ext, lookup) == stem
  {
    var path := stem + "." + ext;
    BasenameOfPlainName(path);
    LastIndexOfSplit(stem, '.', ext);
    assert path[|stem| + 1..] == ext;
    assert path[..|stem|] == stem;
    ConvertDecision(path, lookup);
  }

  /** A non-media extension keeps the whole path, directories included. */
  lemma NonMediaKeepsDirectory(dir: string, name: string, ext: string, lookup: MimeLookup)
    requires '/' !in name && '/' !in ext && '.' !in ext
    requires !StripsExtension(lookup(ext))
    ensures ConvertPathToPublicId(dir + "/" + name + "." + ext, lookup) == dir + "/" + name + "." + ext
  {
    var base := name + "." + ext;
    var path := dir + "/" + base;
    assert dir + "/" + name + "." + ext == path;
    assert '/' !in base;
    BasenameOfChild(dir, base);
    LastIndexOfSplit(name, '.', ext);
    assert base[|name| + 1..] == ext;
    ConvertDecision(path, lookup);
  }

  /** A small table with the three extensions the converter's tests use. */
  function SampleLookup(ext: string): Option<string> {
    if ext == "jpg" then Some("image/jpeg")
    else if ext == "avif" then Some("image/avif")
    else if ext == "txt" then Some("text/plain")
    else None
  }

  /** `SampleLookup` reads "jpg" and "avif" as images and "txt" as a non-media type. */
  lemma SampleLookupFamilies()
    ensures StripsExtension(SampleLookup("jpg")) && StripsExtension(SampleLookup("avif"))
    ensures !StripsExtension(SampleLookup("txt"))
  {
    var m := "text/plain";
    assert m[..5] == "text/";
    assert StartsWith("image/jpeg", "image");
    assert StartsWith("image/avif", "image");
  }

  /** Test case `foo.jpg -> foo`, under `SampleLookup`. */
  lemma SampleFooJpg()
    ensures ConvertPathToPublicId("foo.jpg", SampleLookup) == "foo"
  {
    SampleLookupFamilies();
    assert "foo.jpg" == "foo" + "." + "jpg";
    OnlyLastExtensionStripped("foo", "jpg", SampleLookup);
  }

  /** Test case `test.jpg.jpg -> test.jpg`: only the last extension goes. */
  lemma SampleDoubleJpg()
    ensures ConvertPathToPublicId("test.jpg.jpg", SampleLookup) == "test.jpg"
  {
    SampleLookupFamilies();
    assert "test.jpg.jpg" == "test.jpg" + "." + "jpg";
    OnlyLastExtensionStripped("test.jpg", "jpg", SampleLookup);
  }

  /** Test case `bar.avif -> bar`. */
  lemma SampleBarAvif()
    ensures ConvertPathToPublicId("bar.avif", SampleLookup) == "bar"
  {
    SampleLookupFamilies();
    assert "bar.avif" == "bar" + "." + "avif";
    OnlyLastExtensionStripped("bar", "avif", SampleLookup);
  }

  /** Test case `foobar.txt` is kept as it is. */
  lemma SampleFoobarTxt()
    ensures ConvertPathToPublicId("foobar.txt", SampleLookup) == "foobar.txt"
  {
    SampleLookupFamilies();
    var p := "foobar.txt";
    assert p == "foobar" + "." + "txt";
    BasenameOfPlainName(p);
    LastIndexOfSplit("foobar", '.', "txt");
    assert p[7..] == "txt";
    ConvertDecision(p, SampleLookup);
  }

  /** Test cases `test/foobar.txt`, `test/foo_bar.txt` and `test/foo bar.txt`
      are kept as they are, directory included. */
  lemma SampleTextInDirectory(name: string)
    requires name in {"foobar", "foo_bar", "foo bar"}
    ensures ConvertPathToPublicId("test/" + name + ".txt", SampleLookup) == "test/" + name + ".txt"
  {
    SampleLookupFamilies();
    assert "test/" + name + ".txt" == "test" + "/" + name + "." + "txt";
    NonMediaKeepsDirectory("test", name, "txt", SampleLookup);
  }
}

=== FILE: php_strings.dfy ===
/** The PHP string built-ins the adapter relies on, written out for byte-like
    strings: `str_starts_with`, `str_contains`, `empty()`, conversion to bool,
    `basename`, `pathinfo` (PATHINFO_EXTENSION and PATHINFO_FILENAME) and
    `dirname`, with '/' as the only directory separator. */
module PhpStrings {
  import opened Results

  predicate StartsWith(s: string, p: string) {
    |p| <= |s| && s[..|p|] == p
  }

  /** `str_starts_with` on a nullable haystack: PHP coerces `null` to "". */
  predicate NullableStartsWith(s: Option<string>, p: string) {
    StartsWith(s.GetOr(""), p)
  }

  /** PHP's conversion of a nullable string to bool: `null`, "" and "0" are false. */
  predicate Truthy(s: Option<string>) {
    s.Some? && s.value != "" && s.value != "0"
  }

  /** PHP's `empty()` applied to a string. */
  predicate Empty(s: string) {
    s == "" || s == "0"
  }

  /** The position of the last occurrence of `c` in `s`. */
  function LastIndexOf(s: string, c: char): (r: Option<nat>)
    ensures r.Some? ==> r.value < |s| && s[r.value] == c && c !in s[r.value + 1..]
    ensures r.None? <==> c !in s
  {
    if |s| == 0 then None
    else if s[|s| - 1] == c then Some(|s| - 1)
    else
      var r := LastIndexOf(s[..|s| - 1], c);
      assert s == s[..|s| - 1] + [s[|s| - 1]];
      assert r.Some? ==> s[r.value + 1..] == s[..|s| - 1][r.value + 1..] + [s[|s| - 1]];
      r
  }

  /** Splitting at the last `c`: in `a + [c] + b` with no `c` in `b`, the last
      `c` is the one after `a`. */
  lemma LastIndexOfSplit(a: string, c: char, b: string)
    requires c !in b
    ensures LastIndexOf(a + [c] + b, c) == Some(|a|)
  {
    var s := a + [c] + b;
    assert s[|a|] == c;
    assert s[|a| + 1..] == b;
  }

  /** `s` without its run of trailing slashes. */
  function StripTrailingSlashes(s: string): (t: string)
    ensures |t| <= |s| && t == s[..|t|]
    ensures t == "" || t[|t| - 1] != '/'
    ensures forall i :: |t| <= i < |s| ==> s[i] == '/'
  {
    if |s| == 0 || s[|s| - 1] != '/' then s
    else StripTrailingSlashes(s[..|s| - 1])
  }

  /** Where `basename` finds the last path component: the last maximal run of
      non-slash characters, so trailing slashes are ignored. */
  function BaseSpan(s: string): (span: (nat, nat))
    ensures span.0 <= span.1 <= |s|
    ensures '/' !in s[span.0..span.1]
    ensures span.0 == 0 || s[span.0 - 1] == '/'
    ensures forall i :: span.1 <= i < |s| ==> s[i] == '/'
  {
    var t := StripTrailingSlashes(s);
    match LastIndexOf(t, '/')
    case None => (0, |t|)
    case Some(i) => (i + 1, |t|)
  }

  /** PHP `basename` (no suffix argument). */
  function Basename(s: string): string {
    s[BaseSpan(s).0..BaseSpan(s).1]
  }

  /** `pathinfo($path, PATHINFO_EXTENSION)`: what follows the last dot of the
      basename, or "" when the basename has no dot. */
  function PathinfoExtension(path: string): string {
    var b := Basename(path);
    match LastIndexOf(b, '.')
    case None => ""
    case Some(i) => b[i + 1..]
  }

  /** `pathinfo($path, PATHINFO_FILENAME)`: the basename up to its last dot. */
  function PathinfoFilename(path: string): string {
    var b := Basename(path);
    match LastIndexOf(b, '.')
    case None => b
    case Some(i) => b[..i]
  }

  /** PHP `dirname` with one level: trailing slashes are dropped, then the last
      component, then the slashes before it; "." when no slash is left and "/"
      when only slashes were. */
  function Dirname(s: string): string {
    if s == "" then ""
    else
      var t := StripTrailingSlashes(s);
      if t == "" then "/"
      else match LastIndexOf(t, '/')
        case None => "."
        case Some(i) =>
          var u := StripTrailingSlashes(t[..i]);
          if u == "" then "/" else u
  }

  /** Only the last extension is split off: filename, dot and extension
      reassemble the basename, and the extension holds no further dot. */
  lemma FilenameAndExtension(path: string)
    ensures '.' in Basename(path) ==>
              PathinfoFilename(path) + "." + PathinfoExtension(path) == Basename(path)
              && '.' !in PathinfoExtension(path)
    ensures '.' !in Basename(path) ==>
              PathinfoFilename(path) == Basename(path) && PathinfoExtension(path) == ""
  {
    var b := Basename(path);
    match LastIndexOf(b, '.')
    case None =>
    case Some(i) =>
      assert b == b[..i] + "." + b[i + 1..];
  }

  /** A path without slashes is its own basename. */
  lemma BasenameOfPlainName(s: string)
    requires '/' !in s
    ensures Basename(s) == s
  {
    assert StripTrailingSlashes(s) == s;
  }

  /** The basename of `dir/name` is `name`: the directory part is dropped. */
  lemma BasenameOfChild(dir: string, name: string)
    requires name != "" && '/' !in name
    ensures Basename(dir + "/" + name) == name
  {
    var s := dir + "/" + name;
    assert StripTrailingSlashes(s) == s;
    var k := |dir|;
    assert s[k] == '/';
    assert s[k + 1..] == name;
    LastIndexOfSplit(dir, '/', name);
  }

  /** The dirname of `dir/name` is `dir` when `dir` does not end in a slash. */
  lemma DirnameOfChild(dir: string, name: string)
    requires dir != "" && dir[|dir| - 1] != '/'
    requires name != "" && '/' !in name
    ensures Dirname(dir + "/" + name) == dir
  {
    var s := dir + "/" + name;
    assert StripTrailingSlashes(s) == s;
    var k := |dir|;
    assert s[k] == '/';
    LastIndexOfSplit(dir, '/', name);
    assert s[..k] == dir;
    assert StripTrailingSlashes(dir) == dir;
  }
}

=== FILE: remote_store.dfy ===
/** The remote asset store as the adapter sees it through the upload, admin
    and search APIs: a flat map from public id to asset, plus a list of
    folder paths. Every remote request the adapter issues is a `Call`. Which
    requests fail is decided by the caller through a `Faults` map keyed by the
    request's position within the operation, so a request repeated by one
    operation can fail the second time only. */
module RemoteStore {
  import opened Results
  import opened PhpStrings
  import Escaper

  /** The three resource types the store keeps assets under. */
  datatype ResourceType = Raw | Image | Video

  /** What the store knows about one asset; `None` for a missing key. */
  datatype Asset = Asset(
    resourceType: ResourceType,
    bytes: Option<int>,
    createdAt: Option<string>,
    version: Option<int>,
    url: string)

  /** One entry of a search answer. */
  datatype Resource = Resource(publicId: string, asset: Asset)

  /** An `ApiError` of the SDK: `NotFound` is the subclass the adapter
      catches on its own, everything else is `OtherApiError`. */
  datatype ErrorKind = NotFound | OtherApiError
  datatype ApiError = ApiError(kind: ErrorKind, message: string)

  datatype Remote = Remote(assets: map<string, Asset>, folders: seq<string>)

  /** The remote requests the adapter makes, with the options it passes. */
  datatype Call =
    | Upload(payload: string, publicId: string, overwrite: bool, uploadType: string, async: Option<bool>)
    | Rename(from: string, to: string, resourceType: ResourceType, overwriteFlag: string)
    | DeleteAssets(publicIds: seq<string>, resourceType: ResourceType)
    | DeleteAssetsByPrefix(prefix: string, resourceType: ResourceType)
    | DeleteFolder(path: string)
    | CreateFolder(path: string)
    | SubFolders(path: string)
    | RootFolders
    | Search(expression: Option<string>, maxResults: Option<nat>, cursor: Option<string>)

  /** The requests of one operation that throw, by position (0 for the first
      request the operation makes), and what they throw. */
  type Faults = map<nat, ApiError>

  /** The field prefix of an exact-match search expression. */
  const PublicIdField: string := "public_id:"

  /** The search expression for one public id: the field and the escaped id. */
  function ExactQuery(id: string): (q: string)
    ensures StartsWith(q, PublicIdField)
  {
    PublicIdField + Escaper.Sanitize(id)
  }

  /** How the search service answers a `public_id:<literal>` expression. This
      is an assumption of the model: the service reads the literal with its
      escapes removed and matches public ids exactly. */
  function SearchExact(r: Remote, expression: string): seq<Resource>
    requires StartsWith(expression, PublicIdField)
  {
    var id := Escaper.Unsanitize(expression[|PublicIdField|..]);
    if id in r.assets then [Resource(id, r.assets[id])] else []
  }

  /** The entries of `fs` that `keep` accepts, in their order. */
  function Filter(fs: seq<string>, keep: string -> bool): (r: seq<string>)
    ensures |r| <= |fs|
    ensures forall f :: f in r <==> f in fs && keep(f)
  {
    if fs == [] then []
    else if keep(fs[0]) then [fs[0]] + Filter(fs[1..], keep)
    else Filter(fs[1..], keep)
  }

  /** `f` is a direct subfolder of `parent`: one more non-empty component. */
  predicate IsChildOf(f: string, parent: string) {
    |f| > |parent| + 1 && f[..|parent| + 1] == parent + "/" && '/' !in f[|parent| + 1..]
  }

  /** `f` is `p` or lies below it. */
  predicate InTree(f: string, p: string) {
    f == p || StartsWith(f, p + "/")
  }

  /** The folder paths `subFolders(parent)` answers with. */
  function SubFolderPaths(r: Remote, parent: string): seq<string> {
    Filter(r.folders, f => IsChildOf(f, parent))
  }

  /** The folder paths `rootFolders()` answers with: those without a slash. */
  function RootFolderPaths(r: Remote): seq<string> {
    Filter(r.folders, f => '/' !in f)
  }

  /** The store after an upload with `overwrite` set: the id now holds `stored`. */
  function Store(r: Remote, id: string, stored: Asset): (r': Remote)
    ensures r'.folders == r.folders
    ensures r'.assets.Keys == r.assets.Keys + {id} && r'.assets[id] == stored
    ensures forall k :: k in r.assets && k != id ==> r'.assets[k] == r.assets[k]
  {
    r.(assets := r.assets[id := stored])
  }

  /** The store after a successful call. Calls that only read leave it alone;
      uploads go through `Store`, since what is stored is decided remotely. */
  function Effect(r: Remote, c: Call): Remote {
    match c
    case Rename(from, to, t, _) =>
      if from in r.assets && r.assets[from].resourceType == t then
        r.(assets := (r.assets - {from})[to := r.assets[from]])
      else r
    case DeleteAssets(ids, t) =>
      r.(assets := map id | id in r.assets && !(id in ids && r.assets[id].resourceType == t) :: r.assets[id])
    case DeleteAssetsByPrefix(p, t) =>
      r.(assets := map id | id in r.assets && !(StartsWith(id, p) && r.assets[id].resourceType == t) :: r.assets[id])
    case DeleteFolder(p) =>
      r.(folders := Filter(r.folders, f => !InTree(f, p)))
    case CreateFolder(p) =>
      if p in r.folders then r else r.(folders := r.folders + [p])
    case _ => r
  }

  /** Running calls in order, the first at position `at`, until the first one
      that throws; the calls actually issued come back alongside the final
      store. */
  function RunAll(r: Remote, faults: Faults, cs: seq<Call>, at: nat): (out: (Option<ApiError>, Remote, seq<Call>))
    ensures 0 < |out.2| <= |cs| || (cs == [] && out.2 == [])
    ensures out.2 == cs[..|out.2|]
    ensures out.0.None? <==> out.2 == cs && forall p :: at <= p < at + |cs| ==> p !in faults
    ensures out.0.Some? ==> at + |out.2| - 1 in faults && out.0.value == faults[at + |out.2| - 1]
    ensures forall p :: at <= p < at + |out.2| - 1 ==> p !in faults
    decreases |cs|
  {
    if cs == [] then (None, r, [])
    else if at in faults then (Some(faults[at]), r, [cs[0]])
    else
      var rest := RunAll(Effect(r, cs[0]), faults, cs[1..], at + 1);
      (rest.0, rest.1, [cs[0]] + rest.2)
  }

  /** The store after every call of `cs` succeeds, in order. */
  function ApplyAll(r: Remote, cs: seq<Call>): Remote
    decreases |cs|
  {
    if cs == [] then r else ApplyAll(Effect(r, cs[0]), cs[1..])
  }

  /** When no call of `cs` throws, `RunAll` issues them all and ends in the
      store `ApplyAll` describes. */
  lemma {:induction false} RunAllWithoutFaults(r: Remote, faults: Faults, cs: seq<Call>, at: nat)
    requires RunAll(r, faults, cs, at).0.None?
    ensures RunAll(r, faults, cs, at).1 == ApplyAll(r, cs)
    ensures RunAll(r, faults, cs, at).2 == cs
    decreases |cs|
  {
    if cs != [] {
      RunAllWithoutFaults(Effect(r, cs[0]), faults, cs[1..], at + 1);
    }
  }
}

=== FILE: results.dfy ===
/** Optional values and success-or-failure results, the shapes PHP expresses with
    `null` and with thrown exceptions. */
module Results {

  /** `None` stands for PHP's `null` (or a missing array key). */
  datatype Option<+T> = None | Some(value: T) {

    /** The PHP `??` operator: the value if present, the default otherwise. */
    function GetOr(default: T): T {
      match this
      case Some(v) => v
      case None => default
    }
  }

  /** The outcome of an operation that either returns a value or throws. */
  datatype Result<+T, +E> = Ok(value: T) | Err(error: E)
}
